=== FILE: README.md ===
# glpi-typescript-client, modelled in Dafny

A model of the request-shaping core of the TypeScript client for the GLPI
REST API, with proofs of what it promises:

- **`GlpiAPI`** (`glpi_api.dfy`, `serializer.dfy`, `serializer_proofs.dfy`).
  Every REST operation is modelled as the `socket.call(method, path, options)`
  it makes. The main piece is the query-parameter flattener
  `serializeArrayForGetMethod`. It turns an array option `k` into bracketed keys
  `k[i][f]`; a nested array under the same name becomes `k[i][k][j][f]`. It is
  modelled literally, as the sequence of property writes its loops perform, with
  the `TypeError` that `Object.keys(null)` throws.
- **`GlpiSocket`** (`glpi_socket.dfy`). The base-URL normalisation, the header set
  (JSON defaults overridden by the caller's headers), the request configuration
  `call` builds, and the interceptor that retries a timed-out (`ECONNABORTED`)
  request at most three times.
- **`GlpiClient.initSession`** (`glpi_client.dfy`, `base64.dfy`). The
  `Authorization` header is either HTTP Basic credentials (section 2 of RFC 7617,
  base 64 as in section 4 of RFC 4648) or `user_token <token>`. The model covers
  the login socket's headers and the session socket's headers.
- **`GlpiResponseException`** (`glpi_response_exception.dfy`). How a transport
  error becomes the exception's `code`, `statusCode`, `statusText`, `reason` and
  `message`.

JavaScript values are the datatype `JsValues.Value`. Top-level option objects,
params, bodies and headers are maps from string to `Value`. An object inside an
array (a search criterion) keeps its properties in `Object.keys` order, because
that order decides which of two colliding writes wins. `strings.dfy` holds the
string operations the source relies on: decimal rendering of indices and ids,
`String.prototype.replace` with a string pattern, and ASCII lower-casing.

The base URL loses only one trailing slash (`url.replace(/\/$/, '')`), so
`http://h//` is kept as it is. The client has no session-expiry or re-login
handling: a 401 answer reaches the caller like any other failed request.

## Model

| member | source | states |
|---|---|---|
| ParamSerializer.OwnEntries | src/GlpiAPI.ts:133-153 | `Object.keys(item)` paired with `item[key]`: an object's own properties in order; for an array, entry `j` is the index text `j` with element `j`; for a string, the index text `j` with the one-character string at `j`; nothing for a number or boolean; every array value found is smaller than the item, so the flattener's recursion ends on the finite values modelled |
| SerializerProperties.Serialize | src/GlpiAPI.ts:122-162 | the flattener throws exactly when some listed array, at any depth of nesting, under any property name, reaches a `null` or `undefined` element; otherwise, for listed keys without `[`, the result is the options with every listed array's writes applied in order and the processed keys deleted |
| SerializerProperties.SerializeFromShape | src/GlpiAPI.ts:123-159 | when nothing throws, the result is the options with every listed array's writes applied in order and the processed keys deleted |
| SerializerProperties.SerializeFromFails | src/GlpiAPI.ts:125-133 | the loop over the listed keys, from any key on and with any object so far, throws exactly when one of the remaining listed arrays reaches a `null` or `undefined` element |
| SerializerProperties.WriteOrigin | src/GlpiAPI.ts:130-155 | every write the loops make for one array comes from one property of one element |
| SerializerProperties.WriteIncluded | src/GlpiAPI.ts:130-155 | every write for one property of one element is among the array's writes |
| SerializerProperties.EntryWriteShape | src/GlpiAPI.ts:138-154 | a plain property writes exactly `k[i][f] = item[f]`; a nested array writes `k[i][f]` followed by a sub-key of the recursive call's object with `k` cut out, carrying that sub-key's value |
| SerializerProperties.WriteKeyPrefix | src/GlpiAPI.ts:147-152 | every key written while flattening the array under `k` begins with `k[` |
| SerializerProperties.SubitemOrigin | src/GlpiAPI.ts:139-143 | every entry of the recursive call's object is one of the nested array's writes, so its key begins with `f[` |
| SerializerProperties.SerializeKeepsOtherKeys | src/GlpiAPI.ts:123 | an option key that is not a processed array key and not of the form `k[...` for a listed `k` is copied unchanged, or stays absent (`sort` survives a search) |
| SerializerProperties.SerializeSkipsNonArrays | src/GlpiAPI.ts:126 | a listed key that is absent or holds a non-array passes through untouched |
| SerializerProperties.SerializeRemovesArrayKeys | src/GlpiAPI.ts:158 | a listed key holding an array is absent from the result |
| SerializerProperties.SerializeFlatField | src/GlpiAPI.ts:150-153 | for element `i` and its non-array property `f`, the result maps `k[i][f]` to that property's value |
| SerializerProperties.SerializeNestedField | src/GlpiAPI.ts:138-149 | for element `i` whose property `k` holds an array `ys`, and a non-array property `g` of `ys[j]`, the result maps `k[i][k][j][g]` to `ys[j][g]` |
| SerializerProperties.SerializeNoOtherKeys | src/GlpiAPI.ts:122-162 | every result key is an unprocessed option key or starts with `k[` for a processed `k` |
| SerializerProperties.SerializeDropsScalarElements | src/GlpiAPI.ts:130-135 | an array of numbers or booleans (`forcedisplay: [0, 1]`) contributes no `k[...]` key: the key is deleted and nothing replaces it |
| SerializerProperties.FlatFieldWrites | src/GlpiAPI.ts:150-153 | one array's writes include `k[i][f] = item[f]`, and every write to that key carries that value |
| SerializerProperties.NestedFieldWrites | src/GlpiAPI.ts:138-148 | one array's writes include the grafted `k[i][k][j][g] = ys[j][g]`, and every write to that key carries that value |
| SerializerProperties.SubitemFlatField | src/GlpiAPI.ts:139-141 | the recursive call's object maps `k[j][g]` to `ys[j][g]` and nothing else to that key |
| SerializerProperties.FieldKeyInjective | src/GlpiAPI.ts:152 | two keys `k[i][f]...` are equal only for the same index and, for `]`-free property names, the same property |
| SerializerProperties.ConcatMember | src/GlpiAPI.ts:130-135 | a write is among the loop's writes exactly when some element's writes contain it |
| SerializerProperties.AllWritesMember | src/GlpiAPI.ts:125-159 | the outer loop writes exactly the writes of the processed keys |
| JsValues.WriteAllAgreed | src/GlpiAPI.ts:148 | after a run of property writes, a key holds the value every write to it agreed on |
| JsValues.WriteAllDelete | src/GlpiAPI.ts:158 | deleting a key no later write touches commutes with those writes |
| JsStrings.RemoveFirst | src/GlpiAPI.ts:147 | `subkey.replace(originalKey, '')`: when the pattern first occurs at position `i`, the result is the text with positions `i` to `i + |p|` cut out; the text is returned unchanged when the pattern does not occur |
| JsStrings.RemoveFirstAfter | src/GlpiAPI.ts:147 | the pattern is cut out where it first occurs even when that is not the start: `replace` on `a + p + t` gives `a + t` when `a` lacks the pattern's first character |
| JsStrings.DecimalRoundTrip | src/GlpiAPI.ts:152 | the decimal text of an index reads back as that index, so distinct indices give distinct keys |
| JsStrings.IntTextRoundTrip | src/GlpiAPI.ts:71 | the text of a (possibly negative) id reads back as the id |
| GlpiApi.SessionCall | src/GlpiAPI.ts:16-68 | each of `killSession`, `getMyProfiles`, `getActiveProfile`, `getActiveEntities`, `getFullSession`, `getGlpiConfig` is a `get` of the endpoint of its own name with no options |
| GlpiApi.SessionCallsDistinct | src/GlpiAPI.ts:16-68 | distinct session calls use distinct endpoints |
| GlpiApi.LostPassword | src/GlpiAPI.ts:20-31 | the body always has `email`; it has `password_forget_token` and `password` together, and only when `password` is truthy; no other key |
| GlpiApi.LostPasswordNeedsPassword | src/GlpiAPI.ts:25-28 | a missing or empty password sends `{email}` alone |
| GlpiApi.ChangeActiveProfile | src/GlpiAPI.ts:41-43 | `POST changeActiveProfile` with options exactly `{data: {profiles_id}}` |
| GlpiApi.GetMyEntities | src/GlpiAPI.ts:45-47 | `GET getMyEntities` with options exactly `{params: {is_recursive}}`, `is_recursive` being `false` when the argument is `undefined` |
| GlpiApi.ChangeActiveEntities | src/GlpiAPI.ts:53-60 | `POST changeActiveEntities` with options exactly `{data}`, the body holding exactly `entities_id` (default `'all'`) and `is_recursive` (default `false`) |
| GlpiApi.ChangeActiveEntitiesDefaults | src/GlpiAPI.ts:53 | with no arguments the body is `{entities_id: 'all', is_recursive: false}` |
| GlpiApi.GetMyEntitiesDefault | src/GlpiAPI.ts:45-46 | the call equals `getMyEntities(false)` exactly when the argument is omitted or `false` |
| GlpiApi.ChangeActiveEntitiesDefault | src/GlpiAPI.ts:53-59 | for each parameter independently, the call equals the one with `'all'` (or `false`) written out exactly when that argument is omitted or equal to it |
| GlpiApi.SplitJoin | src/GlpiAPI.ts:71 | a path `a/b` with a slash-free `a` splits back into `a` and `b` |
| GlpiApi.ItemPathRoundTrip | src/GlpiAPI.ts:70-72 | the item type and the id can be read back from `item_type/id` |
| GlpiApi.SubitemsPathRoundTrip | src/GlpiAPI.ts:78-80 | item type, id and subitem type can be read back from `item_type/id/subitem_type` |
| GlpiApi.GetItem | src/GlpiAPI.ts:70-72 | `GET ${item_type}/${id}` with options exactly `{params: options}`, `options` defaulting to `{}`; the path splits at a `/` |
| GlpiApi.GetItems | src/GlpiAPI.ts:74-76 | `GET ${item_type}` with options exactly `{params: options}`, `options` defaulting to `{}` |
| GlpiApi.GetSubitems | src/GlpiAPI.ts:78-80 | `GET ${item_type}/${id}/${subitem_type}`, under the item's own path, with options exactly `{params: options}`, `options` defaulting to `{}` |
| GlpiApi.ItemOptionsUnflattened | src/GlpiAPI.ts:70-80 | `getItem`, `getItems` and `getSubitems` send their options as given, without flattening |
| GlpiApi.GetMultipleItems | src/GlpiAPI.ts:82-86 | fails exactly when flattening `items` fails; otherwise `GET getMultipleItems` with the flattened params |
| GlpiApi.ListSearchOptions | src/GlpiAPI.ts:88-92 | `GET listSearchOptions/<type>` with options exactly `{params}`; `params` is `{raw}` when `raw` is truthy and `{}` otherwise |
| GlpiApi.ListSearchOptionsRaw | src/GlpiAPI.ts:88-91 | a sent `raw` is always the truthy argument; any two non-truthy arguments give the same call; a truthy argument gives the same call as another only when they are equal |
| GlpiApi.Search | src/GlpiAPI.ts:94-98 | fails exactly when `criteria` or `forcedisplay` reaches a `null`/`undefined` element; otherwise `GET search/<type>` with those two flattened |
| GlpiApi.SearchKeepsPlainOptions | src/GlpiAPI.ts:94-98 | a search option other than `criteria`/`forcedisplay` whose name does not begin with `criteria[` or `forcedisplay[` is sent unchanged (`sort`, `range[0]`) |
| GlpiApi.SearchSendsCriteria | src/GlpiAPI.ts:95 | for a criterion whose property names are distinct and free of `]`, criterion `i`'s non-array field `f` is sent as `criteria[i][f]` with its value |
| GlpiApi.AddItem | src/GlpiAPI.ts:100-102 | `POST <type>` with options exactly `{data: {input}}`, `input` defaulting to `{}` |
| GlpiApi.UpdateItem | src/GlpiAPI.ts:104-106 | `PUT <type>/<id>` with options exactly `{data: {input}}`, `input` defaulting to `{}` |
| GlpiApi.UpdateTargetsItem | src/GlpiAPI.ts:100-106 | `updateItem` sends the body `addItem` would send, to a path from which the item type and id read back |
| GlpiApi.IdObjectsRoundTrip | src/GlpiAPI.ts:112 | the ids can be read back from `[{id}, ...]`, same order and length |
| GlpiApi.DeleteItem | src/GlpiAPI.ts:108-120 | an id array goes to `<type>` with params `{input: [{id}...]}` merged under the options (options win on a clash); a single id goes to `<type>/<id>` with the options as params |
| GlpiApi.DeleteBatchSendsIds | src/GlpiAPI.ts:109-116 | a batch delete without an `input` option sends every id, in order |
| GlpiApi.DeletePathsDistinct | src/GlpiAPI.ts:108-120 | for a slash-free item type, a single delete and a batch delete never share a path |
| GlpiSocket.NormalizeUrl | src/GlpiSocket.ts:9 | the base URL ends in `/`; it is the URL itself when that already ends in `/`, otherwise the URL plus `/` |
| GlpiSocket.NormalizeUrlIdempotent | src/GlpiSocket.ts:9 | normalising twice is normalising once |
| GlpiSocket.NormalizeUrlExtends | src/GlpiSocket.ts:9 | the URL is a prefix of its normal form, which is at most one character longer |
| GlpiSocket.NormalizeUrlKeepsDoubleSlash | src/GlpiSocket.ts:9 | a URL ending in `//` is kept as it is |
| GlpiSocket.MakeHeaders | src/GlpiSocket.ts:32-38 | the headers are `Accept` and `Content-Type` (`application/json`) overridden key by key by the caller's headers |
| GlpiSocket.NewSocket | src/GlpiSocket.ts:8-11 | a socket has the normalised URL and the merged headers, the caller's defaulting to `{}` |
| GlpiSocket.SetHeader | src/GlpiSocket.ts:13-38 | the headers are exactly the JSON defaults (`Accept` and `Content-Type` both `application/json`) overridden key by key by the new caller headers, whatever was set before; the URL is kept |
| GlpiSocket.NoCredentialsByDefault | src/GlpiSocket.ts:8-10 | without caller headers there is no `Authorization`, `App-Token` or `Session-Token` |
| GlpiSocket.SetHeaderReplaces | src/GlpiSocket.ts:13-15 | a second `setHeader` alone decides the headers: a header only the first one set is gone |
| GlpiSocket.CallConfig | src/GlpiSocket.ts:17-27 | the config has `url` and `method` plus the option keys; options override, otherwise `url` is the path and `method` the lower-cased method |
| GlpiSocket.CallConfigIgnoresMethodCase | src/GlpiSocket.ts:22 | the method's case does not change the config |
| GlpiSocket.Transmit | src/GlpiSocket.ts:45-52 | the request ends with the first outcome that is not an `ECONNABORTED` failure carrying its config while fewer than three retries were made; every earlier outcome was one |
| GlpiSocket.Request | src/GlpiSocket.ts:41-52 | from the instance's counter 0, the caller sees the first outcome that is not a retryable timeout, every transmission before it was a retryable `ECONNABORTED` failure carrying its config with fewer than three retries made, and there are at most four transmissions |
| GlpiSocket.RequestBounded | src/GlpiSocket.ts:41-49 | starting from counter 0, at most three retries: one to four transmissions |
| GlpiSocket.OtherFailuresNotRetried | src/GlpiSocket.ts:51 | a success or any other failure on the first transmission ends the request there |
| GlpiSocket.TransmitStopsFirst | src/GlpiSocket.ts:45-52 | the retry loop stops at the first non-retryable outcome or the fourth transmission |
| GlpiSocket.PersistentTimeoutGivesUp | src/GlpiSocket.ts:46-51 | four timeouts in a row: the fourth failure reaches the caller |
| Base64.Encode | src/GlpiClient.ts:15 | the encoding has `4 * ceil(n / 3)` characters, all from the base 64 alphabet or `=` |
| Base64.DecodeEncode | src/GlpiClient.ts:15 | decoding an encoding gives back the bytes |
| Base64.EncodeDecode | src/GlpiClient.ts:15 | decoding is a true inverse: any text that decodes (pad bits zero, padding only in the last group) is the encoding of the bytes it decodes to |
| Base64.EncodeInjective | src/GlpiClient.ts:15 | distinct byte strings have distinct encodings |
| Base64.RfcTestVectors | src/GlpiClient.ts:15 | the test vectors of section 10 of RFC 4648 for `f`, `fo`, `foo`, `foobar` |
| GlpiClient.Authorization | src/GlpiClient.ts:13-19 | the header starts with `Basic ` exactly when a user is given, and with `user_token ` exactly when none is |
| GlpiClient.AuthorizationRoundTrip | src/GlpiClient.ts:14-19 | a server reading the header gets the encoded `username:password` when a user is given, else the user token's text (`undefined` when missing) |
| GlpiClient.UserTakesPrecedence | src/GlpiClient.ts:14 | when a user is given the user token is ignored |
| GlpiClient.LoginHeaders | src/GlpiClient.ts:21-24 | the login socket's caller headers are exactly `Authorization` and `App-Token` |
| GlpiClient.LoginSocket | src/GlpiClient.ts:21-24 | the login socket sends `Accept`, `Content-Type`, `Authorization`, `App-Token` and no `Session-Token` |
| GlpiClient.LoginCall | src/GlpiClient.ts:26 | the login request is `get initSession` |
| GlpiClient.SessionHeaders | src/GlpiClient.ts:28-31 | the session socket's caller headers are exactly `App-Token` and `Session-Token` |
| GlpiClient.SessionToken | src/GlpiClient.ts:30 | `response.data.session_token` throws for a `null`/`undefined` body and is `undefined` for a body without it |
| GlpiClient.InitSession | src/GlpiClient.ts:12-33 | a rejected login is passed on; a resolved one gives a session exactly when its body is neither `null` nor `undefined` (else the read of `session_token` throws); the session socket sends `App-Token` and the received `Session-Token` and no `Authorization` |
| GlpiClient.SameAppToken | src/GlpiClient.ts:21-31 | the login and session sockets send the same `App-Token` |
| GlpiClient.SessionTokenCarried | src/GlpiClient.ts:28-31 | an answer `{session_token: t}` yields a session socket sending `t` |
| GlpiResponseException.FromTransportError | src/GlpiResponseException.ts:12-31 | `code` is copied; `statusCode` and `statusText` are set exactly when a response exists; `reason` is unset unless the body is an array, and then it is the body's first element, `undefined` for an empty array; the message is truthy or the transport error's message |
| GlpiResponseException.MessageFallback | src/GlpiResponseException.ts:21-30 | the message is the body's second element exactly when the body is an array whose second element is truthy, else the transport error's message |
| GlpiResponseException.GlpiErrorBody | src/GlpiResponseException.ts:21-24 | a GLPI error body `[reason, message]` gives that reason and message |
| GlpiResponseException.NoResponse | src/GlpiResponseException.ts:15-30 | with no response the exception has only the code and the transport error's message |

## Left out

- HTTP transport. The axios instance, the 40000 ms timeout, interceptor registration and promises are not modelled. A request is its configuration; its outcome comes from a caller-supplied sequence of transmission results (`GlpiSocket.Request`). `initSession` is given the result of its login request.
- The retry rule assumes the counter starts at 0, which is the instance default. A caller option that sets `retries` itself is not modelled.
- The UTF-8 encoding inside `Buffer.from` is a parameter: any function from text to bytes.
- `toLocaleLowerCase` is modelled for ASCII letters only. Locale-specific mappings are not modelled.
- ParamSerializer.OwnEntries: `Object.keys` of a string counts UTF-16 code units, while a Dafny string counts characters, so an element holding a character outside the Basic Multilingual Plane gives two entries in the source and one here.
- ParamSerializer.OwnEntries: option values are finite trees, so the source's unbounded recursion (ending in a `RangeError`) on a cyclic options object such as `a = [{}]; a[0].x = a` is not represented.
- GlpiApi.SearchKeepsPlainOptions: claimed only for option names that do not begin with `criteria[` or `forcedisplay[`; a caller's own key such as `criteria[0][field]` is overwritten by the flattened write to the same key, as the source does.
- GlpiSocket.SetHeader: the source replaces the socket's HTTP instance in place, so every holder of the socket sees the new headers; the model returns a new `Socket` value instead, since nothing modelled shares a socket.
- Numbers are mathematical integers. Fractions, `NaN` and the JavaScript rule that lists integer-like keys first in `Object.keys` order are not modelled.
- JSON serialisation of bodies and the query-string encoding of params are left to the HTTP library and not modelled. In particular, a body property holding `undefined` is kept as a key here.
- `GlpiResponseException` has no caller among the modelled files. Its construction from a transport error is modelled on its own.
- `GlpiApi.Search`: the flattener drops scalar array elements (`forcedisplay: [0, 1]` sends no `forcedisplay[...]` key). The model follows the code, not the unit test that expects `forcedisplay[0]`.
- `GlpiApi.ItemOptionsUnflattened`: `getItems` and `getSubitems` send an object option such as `searchText` unflattened. The model follows the code, not the unit test that expects `searchText[name]`.
- `GlpiApi.SessionCallsDistinct`: the methods the code passes are lower-case (`get`, `put`, `post`, `delete`). The unit tests expect upper-case; the model follows the code.
- SerializerProperties.SerializeFlatField: claimed only for listed keys without `[`, and for elements whose property names are free of `]` and distinct, because otherwise two flattened keys can coincide.
- SerializerProperties.SerializeNestedField: claimed only when the nested array has the outer key's name (the `k[i][k][j][g]` case). For a different name, `subkey.replace(originalKey, '')` cuts the first occurrence of the outer key out of the sub-key wherever it occurs (`subcriteria[0][field]` under `criteria` becomes `sub[0][field]`, written as `criteria[0][subcriteria]sub[0][field]`), or removes nothing when it does not occur; the model computes these keys but claims nothing about them beyond `JsStrings.RemoveFirst` and `JsStrings.RemoveFirstAfter`.
- SerializerProperties.SerializeKeepsOtherKeys: claimed only for listed keys without `[`. Every call in the client lists such keys (`items`, `criteria`, `forcedisplay`).
- GlpiApi.ItemPathRoundTrip: the path can be read back only when the item type contains no `/`.
- Session expiry: the client has no re-login, backoff or locking; a 401 answer reaches the caller as a failed request, so there is nothing to model.

=== FILE: base64.dfy ===
/**
 * The base 64 encoding of section 4 of RFC 4648, with `=` padding, as
 * `Buffer.toString('base64')` produces it, and the matching decoder.
 */
module Base64 {
  import opened Wrappers

  type byte = x: int | 0 <= x < 256

  /** A 6-bit group: the value one base 64 character carries. */
  type sextet = x: int | 0 <= x < 64

  /** The character for a 6-bit value (Table 1 of RFC 4648): `A`-`Z`, `a`-`z`, `0`-`9`, `+`, `/`. */
  function Char(v: sextet): (c: char)
    ensures c != '='
  {
    if v < 26 then ('A' as int + v) as char
    else if v < 52 then ('a' as int + (v - 26)) as char
    else if v < 62 then ('0' as int + (v - 52)) as char
    else if v == 62 then '+'
    else '/'
  }

  /** The 6-bit value of an alphabet character; `None` for anything else, the pad included. */
  function Value(c: char): (r: Option<sextet>)
    ensures r.Some? ==> Char(r.value) == c
  {
    if 'A' <= c <= 'Z' then Some(c as int - 'A' as int)
    else if 'a' <= c <= 'z' then Some(c as int - 'a' as int + 26)
    else if '0' <= c <= '9' then Some(c as int - '0' as int + 52)
    else if c == '+' then Some(62)
    else if c == '/' then Some(63)
    else None
  }

  lemma ValueOfChar(v: sextet)
    ensures Value(Char(v)) == Some(v)
  {
  }

  /** Whether `c` may appear in an encoding: an alphabet character or the pad. */
  predicate InAlphabet(c: char) {
    Value(c).Some? || c == '='
  }

  /** Three bytes as four characters: the 24 bits cut into four 6-bit groups, high bits first. */
  function EncodeTriple(a: byte, b: byte, c: byte): string {
    [Char(a / 4), Char((a % 4) * 16 + b / 16), Char((b % 16) * 4 + c / 64), Char(c % 64)]
  }

  /**
   * The encoding of `bs`: whole groups of three bytes, then a final group of
   * one byte (two characters and `==`) or two bytes (three characters and `=`).
   */
  function Encode(bs: seq<byte>): (r: string)
    ensures |r| == 4 * ((|bs| + 2) / 3)
    ensures forall i :: 0 <= i < |r| ==> InAlphabet(r[i])
    decreases |bs|
  {
    if |bs| == 0 then []
    else if |bs| == 1 then [Char(bs[0] / 4), Char((bs[0] % 4) * 16), '=', '=']
    else if |bs| == 2 then [Char(bs[0] / 4), Char((bs[0] % 4) * 16 + bs[1] / 16), Char((bs[1] % 16) * 4), '=']
    else EncodeTriple(bs[0], bs[1], bs[2]) + Encode(bs[3..])
  }

  /**
   * Four characters back to up to three bytes; `None` on a character outside
   * the alphabet, or when the bits a pad leaves unused are not zero.
   */
  function DecodeQuad(q: string): (r: Option<seq<byte>>)
    requires |q| == 4
  {
    var v0, v1, v2, v3 := Value(q[0]), Value(q[1]), Value(q[2]), Value(q[3]);
    if v0.None? || v1.None? then None
    else if q[2] == '=' && q[3] == '=' then
      if v1.value % 16 != 0 then None else Some([Byte0(v0.value, v1.value)])
    else if v2.None? then None
    else if q[3] == '=' then
      if v2.value % 4 != 0 then None else Some([Byte0(v0.value, v1.value), Byte1(v1.value, v2.value)])
    else if v3.None? then None
    else Some([Byte0(v0.value, v1.value), Byte1(v1.value, v2.value), Byte2(v2.value, v3.value)])
  }

  /** The first byte of a group: six bits of the first character, two of the second. */
  function Byte0(v0: sextet, v1: sextet): byte {
    v0 * 4 + v1 / 16
  }

  /** The second byte: four bits of the second character, four of the third. */
  function Byte1(v1: sextet, v2: sextet): byte {
    (v1 % 16) * 16 + v2 / 4
  }

  /** The third byte: two bits of the third character, six of the fourth. */
  function Byte2(v2: sextet, v3: sextet): byte {
    (v2 % 4) * 64 + v3
  }

  lemma Byte0Inverse(a: byte, low: int)
    requires 0 <= low < 16
    ensures Byte0(a / 4, (a % 4) * 16 + low) == a
  {
  }

  lemma Byte1Inverse(high: int, b: byte, low: int)
    requires 0 <= high < 4 && 0 <= low < 4
    ensures Byte1(high * 16 + b / 16, (b % 16) * 4 + low) == b
  {
  }

  lemma Byte2Inverse(high: int, c: byte)
    requires 0 <= high < 16
    ensures Byte2(high * 4 + c / 64, c % 64) == c
  {
  }

  /** Decodes a whole encoding, group by group; `None` when it is not one (a padded group must be the last). */
  function Decode(s: string): (r: Option<seq<byte>>)
    decreases |s|
  {
    if |s| == 0 then Some([])
    else if |s| < 4 then None
    else
      match (DecodeQuad(s[..4]), Decode(s[4..]))
      case (Some(head), Some(tail)) => if |head| < 3 && |s| > 4 then None else Some(head + tail)
      case _ => None
  }

  lemma DecodeTriple(a: byte, b: byte, c: byte)
    ensures DecodeQuad(EncodeTriple(a, b, c)) == Some([a, b, c])
  {
    ValueOfChar(a / 4);
    ValueOfChar((a % 4) * 16 + b / 16);
    ValueOfChar((b % 16) * 4 + c / 64);
    ValueOfChar(c % 64);
    Byte0Inverse(a, b / 16);
    Byte1Inverse(a % 4, b, c / 64);
    Byte2Inverse(b % 16, c);
  }

  /** A final group of one byte: two characters and `==`. */
  lemma DecodeSingle(a: byte)
    ensures Decode([Char(a / 4), Char((a % 4) * 16), '=', '=']) == Some([a])
  {
    var q := [Char(a / 4), Char((a % 4) * 16), '=', '='];
    ValueOfChar(a / 4);
    ValueOfChar((a % 4) * 16);
    Byte0Inverse(a, 0);
    assert q[..4] == q && q[4..] == [];
    assert DecodeQuad(q[..4]) == Some([a]);
    assert Decode(q[4..]) == Some([]);
    assert [a] + [] == [a];
  }

  /** A final group of two bytes: three characters and `=`. */
  lemma DecodePair(a: byte, b: byte)
    ensures Decode([Char(a / 4), Char((a % 4) * 16 + b / 16), Char((b % 16) * 4), '=']) == Some([a, b])
  {
    var q := [Char(a / 4), Char((a % 4) * 16 + b / 16), Char((b % 16) * 4), '='];
    ValueOfChar(a / 4);
    ValueOfChar((a % 4) * 16 + b / 16);
    ValueOfChar((b % 16) * 4);
    Byte0Inverse(a, b / 16);
    Byte1Inverse(a % 4, b, 0);
    assert q[..4] == q && q[4..] == [];
    assert DecodeQuad(q[..4]) == Some([a, b]);
    assert Decode(q[4..]) == Some([]);
    assert [a, b] + [] == [a, b];
  }

  /** A decodable group followed by a decodable rest decodes to the group's bytes, then the rest's. */
  lemma DecodeGroup(group: string, rest: string)
    requires |group| == 4 && DecodeQuad(group).Some? && |DecodeQuad(group).value| == 3 && Decode(rest).Some?
    ensures Decode(group + rest) == Some(DecodeQuad(group).value + Decode(rest).value)
  {
    var s := group + rest;
    assert s[..4] == group;
    assert s[4..] == rest;
    assert DecodeQuad(s[..4]) == DecodeQuad(group);
  }

  lemma SplitThree(bs: seq<byte>)
    requires |bs| > 2
    ensures [bs[0], bs[1], bs[2]] + bs[3..] == bs
  {
    assert bs == bs[..3] + bs[3..];
  }

  /** Once the bytes after the first three round-trip, all of them do. */
  lemma DecodeLeadingGroup(bs: seq<byte>)
    requires |bs| > 2 && Decode(Encode(bs[3..])) == Some(bs[3..])
    ensures Decode(Encode(bs)) == Some(bs)
  {
    SplitThree(bs);
    var group := EncodeTriple(bs[0], bs[1], bs[2]);
    assert Encode(bs) == group + Encode(bs[3..]);
    DecodeTriple(bs[0], bs[1], bs[2]);
    DecodeGroup(group, Encode(bs[3..]));
  }

  /** Decoding an encoding gives back the bytes. */
  lemma {:induction false} DecodeEncode(bs: seq<byte>)
    ensures Decode(Encode(bs)) == Some(bs)
    decreases |bs|
  {
    if |bs| == 1 {
      DecodeSingle(bs[0]);
      assert bs == [bs[0]];
    } else if |bs| == 2 {
      DecodePair(bs[0], bs[1]);
      assert bs == [bs[0], bs[1]];
    } else if |bs| > 2 {
      DecodeEncode(bs[3..]);
      DecodeLeadingGroup(bs);
    }
  }

  /** Distinct byte strings have distinct encodings. */
  lemma EncodeInjective(a: seq<byte>, b: seq<byte>)
    ensures Encode(a) == Encode(b) ==> a == b
  {
    DecodeEncode(a);
    DecodeEncode(b);
  }

  /** Splitting a byte built from two characters gives their bits back. */
  lemma Byte0Split(v0: sextet, v1: sextet)
    ensures Byte0(v0, v1) / 4 == v0 && Byte0(v0, v1) % 4 == v1 / 16
  {
  }

  lemma Byte1Split(v1: sextet, v2: sextet)
    ensures Byte1(v1, v2) / 16 == v1 % 16 && Byte1(v1, v2) % 16 == v2 / 4
  {
  }

  lemma Byte2Split(v2: sextet, v3: sextet)
    ensures Byte2(v2, v3) / 64 == v2 % 4 && Byte2(v2, v3) % 64 == v3
  {
  }

  /** A group that decodes is the encoding of what it decodes to. */
  lemma EncodeQuad(q: string)
    requires |q| == 4 && DecodeQuad(q).Some?
    ensures var h := DecodeQuad(q).value;
      && 1 <= |h| <= 3
      && (|h| == 3 ==> EncodeTriple(h[0], h[1], h[2]) == q)
      && (|h| < 3 ==> Encode(h) == q)
  {
    var v0, v1 := Value(q[0]).value, Value(q[1]).value;
    Byte0Split(v0, v1);
    var h := DecodeQuad(q).value;
    if q[2] == '=' && q[3] == '=' {
      assert (Byte0(v0, v1) % 4) * 16 == v1;
      assert Encode(h) == [Char(v0), Char(v1), '=', '='];
    } else {
      var v2 := Value(q[2]).value;
      Byte1Split(v1, v2);
      assert (Byte0(v0, v1) % 4) * 16 + Byte1(v1, v2) / 16 == v1;
      if q[3] == '=' {
        assert (Byte1(v1, v2) % 16) * 4 == v2;
        assert Encode(h) == [Char(v0), Char(v1), Char(v2), '='];
      } else {
        var v3 := Value(q[3]).value;
        Byte2Split(v2, v3);
        assert (Byte1(v1, v2) % 16) * 4 + Byte2(v2, v3) / 64 == v2;
        assert EncodeTriple(h[0], h[1], h[2]) == [Char(v0), Char(v1), Char(v2), Char(v3)];
      }
    }
  }

  /** Decoding is a true inverse: whatever decodes is the encoding of its bytes. */
  lemma {:induction false} EncodeDecode(s: string)
    ensures Decode(s).Some? ==> Encode(Decode(s).value) == s
    decreases |s|
  {
    if |s| >= 4 && Decode(s).Some? {
      var head, tail := DecodeQuad(s[..4]).value, Decode(s[4..]).value;
      EncodeQuad(s[..4]);
      EncodeDecode(s[4..]);
      if |head| == 3 {
        var bs := head + tail;
        assert bs[3..] == tail;
        assert [bs[0], bs[1], bs[2]] == head;
        assert Encode(bs) == EncodeTriple(bs[0], bs[1], bs[2]) + Encode(bs[3..]);
        assert s == s[..4] + s[4..];
      } else {
        assert s[4..] == [] && tail == [];
        assert head + tail == head;
        assert s == s[..4];
      }
    }
  }

  /** The test vectors of section 10 of RFC 4648 that exercise each final-group shape. */
  lemma RfcTestVectors()
    ensures Encode([]) == ""
    ensures Encode([102]) == "Zg=="
    ensures Encode([102, 111]) == "Zm8="
    ensures Encode([102, 111, 111]) == "Zm9v"
    ensures Encode([102, 111, 111, 98, 97, 114]) == "Zm9vYmFy"
  {
    assert [102, 111, 111, 98, 97, 114][3..] == [98, 97, 114];
  }
}

=== FILE: glpi_api.dfy ===
/**
 * The GLPI REST operations (`GlpiAPI`): each operation is the `socket.call`
 * it makes, the HTTP method, the path relative to the base URL and the
 * options object carrying the query `params` or the request body `data`.
 */
module GlpiApi {
  import opened Wrappers
  import opened JsStrings
  import opened JsValues
  import opened GlpiSocket
  import opened ParamSerializer
  import opened SerializerProperties

  /** `socket.call(verb, path, options)`; `options` is `None` when the call passes none. */
  datatype Call = Call(verb: string, path: string, options: Option<Config>)

  /** The request configuration the socket builds for a call. */
  function ConfigOf(c: Call): Config {
    CallConfig(c.verb, c.path, c.options)
  }

  /** `{ params }` */
  function WithParams(params: Fields): Option<Config> {
    Some(map["params" := Object(params)])
  }

  /** `{ data }` */
  function WithData(data: Fields): Option<Config> {
    Some(map["data" := Object(data)])
  }

  /** The object a call sends under `key` (`params` or `data`); empty when it sends none. */
  function Payload(c: Call, key: string): Fields {
    if c.options.Some? && key in c.options.value && c.options.value[key].Object? then
      c.options.value[key].fields
    else map[]
  }

  /** A parameter with a default value: the default applies when the argument is `undefined`. */
  function Default(v: Value, d: Value): Value {
    if v.Undefined? then d else v
  }

  // ---------------------------------------------------------------------------
  // Session endpoints

  /** The calls that take no argument: a `GET` of a fixed endpoint. */
  datatype SessionQuery =
    | KillSession
    | GetMyProfiles
    | GetActiveProfile
    | GetActiveEntities
    | GetFullSession
    | GetGlpiConfig

  function Endpoint(q: SessionQuery): string {
    match q
    case KillSession => "killSession"
    case GetMyProfiles => "getMyProfiles"
    case GetActiveProfile => "getActiveProfile"
    case GetActiveEntities => "getActiveEntities"
    case GetFullSession => "getFullSession"
    case GetGlpiConfig => "getGlpiConfig"
  }

  function SessionCall(q: SessionQuery): (c: Call)
    ensures c.verb == "get" && c.options.None? && c.path == Endpoint(q)
  {
    Call("get", Endpoint(q), None)
  }

  /** Each session query reaches its own endpoint. */
  lemma SessionCallsDistinct(q: SessionQuery, q': SessionQuery)
    ensures SessionCall(q).path == SessionCall(q').path ==> q == q'
  {
  }

  /** `lostPassword(email, passwordForgetToken?, password?)` */
  function LostPassword(email: string, token: Option<string>, password: Option<string>): (c: Call)
    ensures c.verb == "put" && c.path == "lostPassword"
    ensures c.options == WithData(Payload(c, "data"))
    ensures var body := Payload(c, "data");
      && body.Keys <= {"email", "password_forget_token", "password"}
      && "email" in body && body["email"] == Str(email)
      && ("password" in body <==> Truthy(OptionalText(password)))
      && ("password_forget_token" in body <==> "password" in body)
      && ("password" in body ==> body["password"] == OptionalText(password)
                                 && body["password_forget_token"] == OptionalText(token))
  {
    var body := map["email" := Str(email)];
    var body :=
      if Truthy(OptionalText(password)) then
        body["password_forget_token" := OptionalText(token)]["password" := OptionalText(password)]
      else body;
    Call("put", "lostPassword", WithData(body))
  }

  /** A reset is requested (token and new password sent) only with a non-empty password. */
  lemma LostPasswordNeedsPassword(email: string, token: Option<string>, password: Option<string>)
    ensures ("password" in Payload(LostPassword(email, token, password), "data"))
        <==> (password.Some? && password.value != "")
    ensures password.None? || password == Some("") ==>
      Payload(LostPassword(email, token, password), "data") == map["email" := Str(email)]
  {
  }

  /** `changeActiveProfile(profiles_id)` */
  function ChangeActiveProfile(profilesId: int): (c: Call)
    ensures c.verb == "post" && c.path == "changeActiveProfile"
    ensures c.options == WithData(Payload(c, "data"))
    ensures Payload(c, "data") == map["profiles_id" := Num(profilesId)]
  {
    Call("post", "changeActiveProfile", WithData(map["profiles_id" := Num(profilesId)]))
  }

  /** `getMyEntities(is_recursive = false)` */
  function GetMyEntities(isRecursive: Value): (c: Call)
    ensures c.verb == "get" && c.path == "getMyEntities"
    ensures c.options == WithParams(Payload(c, "params"))
    ensures Payload(c, "params").Keys == {"is_recursive"}
    ensures isRecursive.Undefined? ==> Payload(c, "params")["is_recursive"] == Bool(false)
    ensures !isRecursive.Undefined? ==> Payload(c, "params")["is_recursive"] == isRecursive
  {
    Call("get", "getMyEntities", WithParams(map["is_recursive" := Default(isRecursive, Bool(false))]))
  }

  /** `changeActiveEntities(entities_id = 'all', is_recursive = false)` */
  function ChangeActiveEntities(entitiesId: Value, isRecursive: Value): (c: Call)
    ensures c.verb == "post" && c.path == "changeActiveEntities"
    ensures c.options == WithData(Payload(c, "data"))
    ensures Payload(c, "data").Keys == {"entities_id", "is_recursive"}
    ensures Payload(c, "data")["entities_id"] == (if entitiesId.Undefined? then Str("all") else entitiesId)
    ensures Payload(c, "data")["is_recursive"] == (if isRecursive.Undefined? then Bool(false) else isRecursive)
  {
    Call("post", "changeActiveEntities",
      WithData(map["entities_id" := Default(entitiesId, Str("all")),
                   "is_recursive" := Default(isRecursive, Bool(false))]))
  }

  /** Called with no arguments, `changeActiveEntities` selects all entities, not recursively. */
  lemma ChangeActiveEntitiesDefaults()
    ensures Payload(ChangeActiveEntities(Undefined, Undefined), "data")
         == map["entities_id" := Str("all"), "is_recursive" := Bool(false)]
  {
  }

  /**
   * The default of `getMyEntities` stands for an explicit `false`: the call is
   * the one `false` gives exactly when the argument is omitted or is `false`.
   */
  lemma GetMyEntitiesDefault(isRecursive: Value)
    ensures GetMyEntities(isRecursive) == GetMyEntities(Bool(false))
        <==> isRecursive == Undefined || isRecursive == Bool(false)
  {
  }

  /**
   * Each default of `changeActiveEntities` stands for its explicit value, and
   * the two parameters are independent: the call equals the one with `'all'`
   * (or `false`) written out exactly when that argument is omitted or equal to it.
   */
  lemma ChangeActiveEntitiesDefault(entitiesId: Value, isRecursive: Value)
    ensures ChangeActiveEntities(entitiesId, isRecursive) == ChangeActiveEntities(Str("all"), isRecursive)
        <==> entitiesId == Undefined || entitiesId == Str("all")
    ensures ChangeActiveEntities(entitiesId, isRecursive) == ChangeActiveEntities(entitiesId, Bool(false))
        <==> isRecursive == Undefined || isRecursive == Bool(false)
  {
  }

  // ---------------------------------------------------------------------------
  // Item paths

  /** `${item_type}/${id}` */
  function ItemPath(itemType: string, id: int): string {
    itemType + "/" + IntText(id)
  }

  /** `${item_type}/${id}/${subitem_type}` */
  function SubitemsPath(itemType: string, id: int, subitemType: string): string {
    ItemPath(itemType, id) + "/" + subitemType
  }

  /** A path cut at its first `/`: `None` when it has none. */
  function SplitAtSlash(p: string): (r: Option<(string, string)>)
    ensures r.None? <==> '/' !in p
    ensures r.Some? ==> p == r.value.0 + "/" + r.value.1 && '/' !in r.value.0
    decreases |p|
  {
    if p == [] then None
    else if p[0] == '/' then assert p == [] + "/" + p[1..]; Some(([], p[1..]))
    else
      match SplitAtSlash(p[1..])
      case None => None
      case Some((a, b)) =>
        assert p == [p[0]] + a + "/" + b by { assert p == [p[0]] + p[1..]; }
        Some(([p[0]] + a, b))
  }

  /** Cutting `a/b` at its first slash gives `a` and `b` back when `a` has no slash. */
  lemma SplitJoin(a: string, b: string)
    requires '/' !in a
    ensures SplitAtSlash(a + "/" + b) == Some((a, b))
  {
    var r := SplitAtSlash(a + "/" + b);
    SplitAtFirst(a, b, r.value.0, r.value.1, '/');
  }

  /** An item type without `/` and the id can be read back from an item path. */
  lemma ItemPathRoundTrip(itemType: string, id: int)
    requires '/' !in itemType
    ensures var r := SplitAtSlash(ItemPath(itemType, id));
      r.Some? && r.value.0 == itemType && r.value.1 == IntText(id) && ParseInt(r.value.1) == id
  {
    SplitJoin(itemType, IntText(id));
    IntTextRoundTrip(id);
  }

  /** The same for a subitems path: item type, id and subitem type come back in turn. */
  lemma SubitemsPathRoundTrip(itemType: string, id: int, subitemType: string)
    requires '/' !in itemType
    ensures var r := SplitAtSlash(SubitemsPath(itemType, id, subitemType));
      && r.Some? && r.value.0 == itemType
      && SplitAtSlash(r.value.1) == Some((IntText(id), subitemType))
      && ParseInt(IntText(id)) == id
  {
    assert SubitemsPath(itemType, id, subitemType) == itemType + "/" + (IntText(id) + "/" + subitemType);
    SplitJoin(itemType, IntText(id) + "/" + subitemType);
    SplitJoin(IntText(id), subitemType);
    IntTextRoundTrip(id);
  }

  // ---------------------------------------------------------------------------
  // Items

  /** `options: ... = {}`: an omitted options object is the empty one. */
  function OptionsArg(options: Option<Fields>): Fields {
    options.GetOr(map[])
  }

  /** `getItem(item_type, id, options = {})`: the options go out as query params unchanged. */
  function GetItem(itemType: string, id: int, options: Option<Fields>): (c: Call)
    ensures c.verb == "get" && c.options == WithParams(OptionsArg(options))
    ensures c.path == ItemPath(itemType, id)
    ensures SplitAtSlash(c.path).Some?
  {
    var c := Call("get", ItemPath(itemType, id), WithParams(OptionsArg(options)));
    assert '/' in c.path by { assert c.path[|itemType|] == '/'; }
    c
  }

  /** `getItems(item_type, options = {})` */
  function GetItems(itemType: string, options: Option<Fields>): (c: Call)
    ensures c.verb == "get" && c.path == itemType && c.options == WithParams(OptionsArg(options))
  {
    Call("get", itemType, WithParams(OptionsArg(options)))
  }

  /** `getSubitems(item_type, id, subitem_type, options = {})` */
  function GetSubitems(itemType: string, id: int, subitemType: string, options: Option<Fields>): (c: Call)
    ensures c.verb == "get" && c.options == WithParams(OptionsArg(options))
    ensures c.path == SubitemsPath(itemType, id, subitemType)
    ensures StartsWith(c.path, ItemPath(itemType, id) + "/")
  {
    var c := Call("get", SubitemsPath(itemType, id, subitemType), WithParams(OptionsArg(options)));
    assert c.path[..|ItemPath(itemType, id) + "/"|] == ItemPath(itemType, id) + "/";
    c
  }

  /**
   * The query options are sent as given: `getItems` and `getSubitems` do not
   * flatten an object-valued option such as `searchText`.
   */
  lemma ItemOptionsUnflattened(itemType: string, id: int, subitemType: string, options: Fields)
    ensures Payload(GetItems(itemType, Some(options)), "params") == options
    ensures Payload(GetSubitems(itemType, id, subitemType, Some(options)), "params") == options
    ensures Payload(GetItem(itemType, id, Some(options)), "params") == options
  {
  }

  /** `getMultipleItems(options)`: the `items` array is flattened into `items[i][field]` params. */
  function GetMultipleItems(options: Fields): (r: Result<Call, TypeError>)
    ensures r.Failure? <==> Serialize(["items"], options).Failure?
    ensures r.Success? ==>
      && r.value.verb == "get" && r.value.path == "getMultipleItems"
      && r.value.options == WithParams(Serialize(["items"], options).value)
  {
    match Serialize(["items"], options)
    case Failure(e) => Failure(e)
    case Success(params) => Success(Call("get", "getMultipleItems", WithParams(params)))
  }

  /** `listSearchOptions(item_type, raw?)`: `raw` is sent only when truthy. */
  function ListSearchOptions(itemType: string, raw: Value): (c: Call)
    ensures c.verb == "get" && c.path == "listSearchOptions/" + itemType
    ensures Truthy(raw) ==> Payload(c, "params") == map["raw" := raw]
    ensures !Truthy(raw) ==> Payload(c, "params") == map[]
    ensures c.options == WithParams(Payload(c, "params"))
  {
    var params: Fields := if Truthy(raw) then map["raw" := raw] else map[];
    Call("get", "listSearchOptions/" + itemType, WithParams(params))
  }

  /**
   * `raw` is only ever sent truthy, every non-truthy value (`undefined`,
   * `false`, `0`, `''`, `null`) gives the same call, and two truthy values give
   * the same call only when they are the same value.
   */
  lemma ListSearchOptionsRaw(itemType: string, raw: Value, raw': Value)
    ensures var params := Payload(ListSearchOptions(itemType, raw), "params");
      "raw" in params ==> Truthy(params["raw"]) && params["raw"] == raw
    ensures !Truthy(raw) && !Truthy(raw') ==>
      ListSearchOptions(itemType, raw) == ListSearchOptions(itemType, raw')
    ensures Truthy(raw) ==>
      (ListSearchOptions(itemType, raw) == ListSearchOptions(itemType, raw') <==> raw == raw')
  {
  }

  /** The keys `search` flattens. */
  const SearchArrays: seq<string> := ["criteria", "forcedisplay"]

  /** `search(item_type, options = {})`: `criteria` and `forcedisplay` are flattened. */
  function Search(itemType: string, options: Option<Fields>): (r: Result<Call, TypeError>)
    ensures r.Failure? <==> AnyThrows(SearchArrays, OptionsArg(options))
    ensures r.Success? ==>
      && r.value.verb == "get" && r.value.path == "search/" + itemType
      && r.value.options == WithParams(Serialize(SearchArrays, OptionsArg(options)).value)
  {
    match Serialize(SearchArrays, OptionsArg(options))
    case Failure(e) => Failure(e)
    case Success(params) => Success(Call("get", "search/" + itemType, WithParams(params)))
  }

  /**
   * Search options other than the flattened arrays go out as given: `sort: 15`
   * is sent as `sort=15`.
   */
  lemma SearchKeepsPlainOptions(itemType: string, options: Fields, key: string)
    requires Search(itemType, Some(options)).Success?
    requires key != "criteria" && key != "forcedisplay"
    requires !StartsWith(key, "criteria[") && !StartsWith(key, "forcedisplay[")
    ensures var params := Payload(Search(itemType, Some(options)).value, "params");
      (key in params <==> key in options) && (key in options ==> params[key] == options[key])
  {
    SerializeKeepsOtherKeys(SearchArrays, options, key);
  }

  /** Each search criterion's field `f` is sent as `criteria[i][f]`. */
  lemma SearchSendsCriteria(itemType: string, options: Fields, i: nat, j: nat)
    requires Search(itemType, Some(options)).Success?
    requires "criteria" in options && options["criteria"].Arr?
    requires i < |options["criteria"].items| && j < |OwnEntries(options["criteria"].items[i])|
    requires PlainKeys(options["criteria"].items[i])
    requires !OwnEntries(options["criteria"].items[i])[j].value.Arr?
    ensures var e := OwnEntries(options["criteria"].items[i])[j];
      var params := Payload(Search(itemType, Some(options)).value, "params");
      FieldKey("criteria", i, e.key) in params && params[FieldKey("criteria", i, e.key)] == e.value
  {
    SerializeFlatField(SearchArrays, options, "criteria", i, j);
  }

  // ---------------------------------------------------------------------------
  // Writing items

  /** `addItem(item_type, input = {})` */
  function AddItem(itemType: string, input: Value): (c: Call)
    ensures c.verb == "post" && c.path == itemType
    ensures c.options == WithData(Payload(c, "data"))
    ensures Payload(c, "data") == map["input" := if input.Undefined? then Obj([]) else input]
  {
    Call("post", itemType, WithData(map["input" := Default(input, Obj([]))]))
  }

  /** `updateItem(item_type, id, input = {})` */
  function UpdateItem(itemType: string, id: int, input: Value): (c: Call)
    ensures c.verb == "put" && c.path == ItemPath(itemType, id)
    ensures c.options == WithData(Payload(c, "data"))
    ensures Payload(c, "data") == map["input" := if input.Undefined? then Obj([]) else input]
  {
    Call("put", ItemPath(itemType, id), WithData(map["input" := Default(input, Obj([]))]))
  }

  /**
   * An update sends the same body a creation would, to the item's own path:
   * the item type and id read back from it when the type has no `/`.
   */
  lemma UpdateTargetsItem(itemType: string, id: int, input: Value)
    requires '/' !in itemType
    ensures Payload(UpdateItem(itemType, id, input), "data") == Payload(AddItem(itemType, input), "data")
    ensures var r := SplitAtSlash(UpdateItem(itemType, id, input).path);
      r.Some? && r.value.0 == AddItem(itemType, input).path && r.value.1 == IntText(id) && ParseInt(r.value.1) == id
  {
    ItemPathRoundTrip(itemType, id);
  }

  /** The `id` argument of `deleteItem`: one id or an array of ids. */
  datatype IdSpec = SingleId(id: int) | IdList(ids: seq<int>)

  /** `id.map(i => ({ id: i }))` */
  function IdObjects(ids: seq<int>): (v: Value)
    ensures v.Arr? && |v.items| == |ids|
    ensures forall i :: 0 <= i < |ids| ==> v.items[i] == Obj([Entry("id", Num(ids[i]))])
  {
    Arr(seq(|ids|, i requires 0 <= i < |ids| => Obj([Entry("id", Num(ids[i]))])))
  }

  /** The id in `{id: n}`; `None` for any other value. */
  function IdOf(v: Value): Option<int> {
    if v.Obj? && |v.entries| == 1 && v.entries[0].key == "id" && v.entries[0].value.Num? then
      Some(v.entries[0].value.n)
    else None
  }

  /** Reads the ids back out of an `input` array of `{id}` objects; `None` for any other shape. */
  function IdsOf(items: seq<Value>): Option<seq<int>>
    decreases |items|
  {
    if items == [] then Some([])
    else
      match (IdOf(items[0]), IdsOf(items[1..]))
      case (Some(n), Some(rest)) => Some([n] + rest)
      case _ => None
  }

  lemma {:induction false} IdObjectsRoundTrip(ids: seq<int>)
    ensures IdsOf(IdObjects(ids).items) == Some(ids)
    decreases |ids|
  {
    if ids != [] {
      assert IdObjects(ids).items[1..] == IdObjects(ids[1..]).items;
      IdObjectsRoundTrip(ids[1..]);
      assert [ids[0]] + ids[1..] == ids;
    }
  }

  /**
   * `deleteItem(item_type, id, options = {})`.  An array of ids goes to the
   * item type's path as `input: [{id}, ...]` merged under the options
   * (`Object.assign({input}, options)`, so an `input` option wins); one id goes
   * to the item's own path with the options as params.
   */
  function DeleteItem(itemType: string, id: IdSpec, options: Option<Fields>): (c: Call)
    ensures c.verb == "delete"
    ensures id.IdList? ==> c.path == itemType
    ensures id.SingleId? ==> c.path == ItemPath(itemType, id.id)
    ensures c.options == WithParams(Payload(c, "params"))
    ensures id.SingleId? ==> Payload(c, "params") == OptionsArg(options)
    ensures id.IdList? ==>
      && Payload(c, "params").Keys == {"input"} + OptionsArg(options).Keys
      && (forall k :: k in OptionsArg(options) ==> Payload(c, "params")[k] == OptionsArg(options)[k])
      && ("input" !in OptionsArg(options) ==> Payload(c, "params")["input"] == IdObjects(id.ids))
  {
    match id
    case IdList(ids) =>
      Call("delete", itemType, WithParams(map["input" := IdObjects(ids)] + OptionsArg(options)))
    case SingleId(n) =>
      Call("delete", ItemPath(itemType, n), WithParams(OptionsArg(options)))
  }

  /** A batch delete sends every id, in order, where a server reads them back. */
  lemma DeleteBatchSendsIds(itemType: string, ids: seq<int>, options: Option<Fields>)
    requires "input" !in OptionsArg(options)
    ensures var params := Payload(DeleteItem(itemType, IdList(ids), options), "params");
      "input" in params && params["input"].Arr? && IdsOf(params["input"].items) == Some(ids)
  {
    IdObjectsRoundTrip(ids);
  }

  /** A single delete and a batch delete of an item type without `/` never share a path. */
  lemma DeletePathsDistinct(itemType: string, n: int, ids: seq<int>, o1: Option<Fields>, o2: Option<Fields>)
    requires '/' !in itemType
    ensures DeleteItem(itemType, SingleId(n), o1).path != DeleteItem(itemType, IdList(ids), o2).path
  {
  }
}

=== FILE: glpi_client.dfy ===
/**
 * Logging in (`GlpiClient.initSession`): the `Authorization` header, built
 * either as HTTP Basic credentials (section 2 of RFC 7617) or as a GLPI user
 * token, the socket that sends `initSession`, and the socket the session then
 * runs on.
 *
 * The UTF-8 encoding `Buffer.from` applies to the credentials is a parameter:
 * any function from text to bytes.
 */
module GlpiClient {
  import opened Wrappers
  import opened JsStrings
  import opened JsValues
  import opened GlpiSocket
  import Base64

  /** `auth.user` */
  datatype User = User(username: string, password: string)

  /** `IAuthParams`: the application token, and a user token or a user name and password. */
  datatype AuthParams = AuthParams(appToken: string, userToken: Option<string>, user: Option<User>)

  /** The text-to-bytes encoding `Buffer.from` applies. */
  type Encoder = string -> seq<Base64.byte>

  const BasicPrefix: string := "Basic "
  const UserTokenPrefix: string := "user_token "

  /**
   * The `Authorization` header of the login request: Basic credentials when a
   * user is given, whatever the user token; otherwise the user token, or the
   * text `undefined` when that is missing too.
   */
  function Authorization(auth: AuthParams, utf8: Encoder): (h: string)
    ensures auth.user.Some? <==> StartsWith(h, BasicPrefix)
    ensures auth.user.None? <==> StartsWith(h, UserTokenPrefix)
  {
    var h :=
      if auth.user.Some? then
        BasicPrefix + Base64.Encode(utf8(auth.user.value.username + ":" + auth.user.value.password))
      else
        UserTokenPrefix + ConcatText(auth.userToken);
    assert StartsWith(h, BasicPrefix) ==> h[0] == 'B';
    assert StartsWith(h, UserTokenPrefix) ==> h[0] == 'u';
    h
  }

  /** What an `Authorization` header carries, as a server reads it. */
  datatype Credentials =
    | Basic(userPass: seq<Base64.byte>)
    | UserToken(token: string)
    | Unrecognised

  /** Reads an `Authorization` header back. */
  function ParseAuthorization(h: string): Credentials {
    if StartsWith(h, BasicPrefix) then
      match Base64.Decode(h[|BasicPrefix|..])
      case Some(bytes) => Basic(bytes)
      case None => Unrecognised
    else if StartsWith(h, UserTokenPrefix) then UserToken(h[|UserTokenPrefix|..])
    else Unrecognised
  }

  /**
   * The header carries exactly the credentials: the encoded `username:password`
   * when a user is given, otherwise the user token's text.
   */
  lemma AuthorizationRoundTrip(auth: AuthParams, utf8: Encoder)
    ensures auth.user.Some? ==>
      ParseAuthorization(Authorization(auth, utf8))
        == Basic(utf8(auth.user.value.username + ":" + auth.user.value.password))
    ensures auth.user.None? ==>
      ParseAuthorization(Authorization(auth, utf8)) == UserToken(ConcatText(auth.userToken))
  {
    var h := Authorization(auth, utf8);
    if auth.user.Some? {
      var bytes := utf8(auth.user.value.username + ":" + auth.user.value.password);
      assert h[|BasicPrefix|..] == Base64.Encode(bytes);
      Base64.DecodeEncode(bytes);
    } else {
      assert h[|UserTokenPrefix|..] == ConcatText(auth.userToken);
    }
  }

  /** A given user wins over a given token: the token is then ignored. */
  lemma UserTakesPrecedence(appToken: string, token: Option<string>, user: User, utf8: Encoder)
    ensures Authorization(AuthParams(appToken, token, Some(user)), utf8)
         == Authorization(AuthParams(appToken, None, Some(user)), utf8)
  {
  }

  /** The headers the login socket is created with. */
  function LoginHeaders(auth: AuthParams, utf8: Encoder): (h: Fields)
    ensures h.Keys == {"Authorization", "App-Token"}
    ensures h["Authorization"] == Str(Authorization(auth, utf8))
    ensures h["App-Token"] == Str(auth.appToken)
  {
    map["Authorization" := Str(Authorization(auth, utf8)), "App-Token" := Str(auth.appToken)]
  }

  /** The headers the session socket is created with. */
  function SessionHeaders(appToken: string, sessionToken: Value): (h: Fields)
    ensures h.Keys == {"App-Token", "Session-Token"}
    ensures h["App-Token"] == Str(appToken) && h["Session-Token"] == sessionToken
  {
    map["App-Token" := Str(appToken), "Session-Token" := sessionToken]
  }

  /** The socket `initSession` logs in with. */
  function LoginSocket(url: string, auth: AuthParams, utf8: Encoder): (s: Socket)
    ensures s.baseUrl == NormalizeUrl(url)
    ensures s.headers.Keys == {"Accept", "Content-Type", "Authorization", "App-Token"}
    ensures "Session-Token" !in s.headers
    ensures s.headers["Authorization"] == Str(Authorization(auth, utf8))
    ensures s.headers["App-Token"] == Str(auth.appToken)
  {
    NewSocket(url, Some(LoginHeaders(auth, utf8)))
  }

  /** `socket.call('GET', 'initSession')`, as configured. */
  function LoginCall(): (c: Config)
    ensures c == map["url" := Text("initSession"), "method" := Text("get")]
  {
    assert AsciiLower("GET") == "get" by {
      assert LowerChar('G') == 'g' && LowerChar('E') == 'e' && LowerChar('T') == 't';
    }
    CallConfig("GET", "initSession", None)
  }

  /** `obj[key]` on an object's entries: the first entry with that key, `undefined` if none. */
  function Property(entries: seq<Entry>, key: string): (v: Value)
    ensures v != Undefined ==> Entry(key, v) in entries
    ensures (forall e :: e in entries ==> e.key != key) ==> v == Undefined
  {
    if entries == [] then Undefined
    else if entries[0].key == key then entries[0].value
    else Property(entries[1..], key)
  }

  /** Why logging in fails. */
  datatype LoginError =
      /** The `initSession` request was rejected: the error propagates to the caller. */
    | RequestFailed(outcome: Outcome)
      /** The response body is `null` or `undefined`, so reading `session_token` throws. */
    | NoResponseBody

  /** `response.data.session_token` */
  function SessionToken(data: Value): (r: Result<Value, LoginError>)
    ensures r.Failure? <==> data.Null? || data.Undefined?
    ensures data.Obj? ==> r == Success(Property(data.entries, "session_token"))
    ensures !data.Obj? && r.Success? ==> r.value == Undefined
  {
    match data
    case Null => Failure(NoResponseBody)
    case Undefined => Failure(NoResponseBody)
    case Obj(es) => Success(Property(es, "session_token"))
    case _ => Success(Undefined)
  }

  /**
   * `initSession(auth)`, given what the login request came to: the session
   * socket on success, the failure otherwise.
   */
  function InitSession(url: string, auth: AuthParams, utf8: Encoder, login: Delivery): (r: Result<Socket, LoginError>)
    ensures login.outcome.Rejected? ==> r == Failure(RequestFailed(login.outcome))
    ensures r.Success? <==> login.outcome.Resolved? && SessionToken(login.outcome.data).Success?
    ensures login.outcome.Resolved? && SessionToken(login.outcome.data).Failure? ==> r == Failure(NoResponseBody)
    ensures r.Success? ==>
      && r.value.baseUrl == NormalizeUrl(url)
      && r.value.headers.Keys == {"Accept", "Content-Type", "App-Token", "Session-Token"}
      && "Authorization" !in r.value.headers
      && r.value.headers["App-Token"] == Str(auth.appToken)
      && SessionToken(login.outcome.data).Success?
      && r.value.headers["Session-Token"] == SessionToken(login.outcome.data).value
  {
    match login.outcome
    case Rejected(_, _) => Failure(RequestFailed(login.outcome))
    case Resolved(data) =>
      match SessionToken(data)
      case Failure(e) => Failure(e)
      case Success(token) => Success(NewSocket(url, Some(SessionHeaders(auth.appToken, token))))
  }

  /**
   * Both sockets send the same `App-Token`: the login socket's value is the
   * session socket's value.
   */
  lemma SameAppToken(url: string, auth: AuthParams, utf8: Encoder, login: Delivery)
    requires InitSession(url, auth, utf8, login).Success?
    ensures InitSession(url, auth, utf8, login).value.headers["App-Token"]
         == LoginSocket(url, auth, utf8).headers["App-Token"]
  {
  }

  /** A server that answers with `{session_token: t}` gets `t` back on every later request. */
  lemma SessionTokenCarried(url: string, auth: AuthParams, utf8: Encoder, t: string, n: nat)
    ensures var r := InitSession(url, auth, utf8, Delivery(Resolved(Obj([Entry("session_token", Str(t))])), n));
      r.Success? && r.value.headers["Session-Token"] == Str(t)
  {
  }
}

=== FILE: glpi_response_exception.dfy ===
/**
 * `GlpiResponseException`: the error the client reports for a failed request,
 * read off the transport error.  GLPI answers a failed call with a two-element
 * array body, `[reason, message]`.
 */
module GlpiResponseException {
  import opened Wrappers
  import opened JsValues

  /** The HTTP response attached to a transport error, when one arrived. */
  datatype Response = Response(status: int, statusText: string, data: Value)

  /** The transport error: its `code`, its `message` and the response, if any. */
  datatype TransportError = TransportError(code: Option<string>, message: string, response: Option<Response>)

  /**
   * The exception's fields.  `statusCode` and `statusText` are `None` when
   * never assigned; `reason` and `message` are JavaScript values, `undefined`
   * when never assigned.
   */
  datatype ResponseException = ResponseException(
    code: Value,
    statusCode: Option<int>,
    statusText: Option<string>,
    reason: Value,
    message: Value)

  /** `arr[i]`: `undefined` past the end. */
  function Element(items: seq<Value>, i: nat): Value {
    if i < |items| then items[i] else Undefined
  }

  /** Whether the error carries a response whose body is an array. */
  predicate HasArrayBody(error: TransportError) {
    error.response.Some? && error.response.value.data.Arr?
  }

  /** `new GlpiResponseException(error)` */
  function FromTransportError(error: TransportError): (x: ResponseException)
    ensures x.code == OptionalText(error.code)
    ensures x.statusCode.Some? <==> error.response.Some?
    ensures x.statusText.Some? <==> error.response.Some?
    ensures error.response.Some? ==>
      x.statusCode == Some(error.response.value.status) && x.statusText == Some(error.response.value.statusText)
    ensures !HasArrayBody(error) ==> x.reason == Undefined
    ensures HasArrayBody(error) ==> x.reason == Element(error.response.value.data.items, 0)
    ensures Truthy(x.message) || x.message == Str(error.message)
  {
    var status := if error.response.Some? then Some(error.response.value.status) else None;
    var text := if error.response.Some? then Some(error.response.value.statusText) else None;
    var items := if HasArrayBody(error) then error.response.value.data.items else [];
    var reason := if HasArrayBody(error) then Element(items, 0) else Undefined;
    var body := if HasArrayBody(error) then Element(items, 1) else Undefined;
    var message := if Truthy(body) then body else Str(error.message);
    ResponseException(OptionalText(error.code), status, text, reason, message)
  }

  /**
   * The message is the body's second element exactly when that element is
   * truthy; in every other case (no response, a body that is not an array, a
   * missing or empty second element) it is the transport error's message.
   */
  lemma MessageFallback(error: TransportError)
    ensures HasArrayBody(error) && Truthy(Element(error.response.value.data.items, 1))
      ==> FromTransportError(error).message == error.response.value.data.items[1]
    ensures !(HasArrayBody(error) && Truthy(Element(error.response.value.data.items, 1)))
      ==> FromTransportError(error).message == Str(error.message)
  {
  }

  /** A GLPI error body `[reason, message]` ends up in the exception's `reason` and `message`. */
  lemma GlpiErrorBody(code: Option<string>, transportMessage: string, status: int, statusText: string,
                      reason: string, message: string)
    requires message != ""
    ensures var x := FromTransportError(TransportError(code, transportMessage,
                       Some(Response(status, statusText, Arr([Str(reason), Str(message)])))));
      x.reason == Str(reason) && x.message == Str(message) && x.statusCode == Some(status)
  {
  }

  /** A failure with no response (a timeout, a refused connection) has only its code and message. */
  lemma NoResponse(code: Option<string>, transportMessage: string)
    ensures FromTransportError(TransportError(code, transportMessage, None))
         == ResponseException(OptionalText(code), None, None, Undefined, Str(transportMessage))
  {
  }
}

=== FILE: glpi_socket.dfy ===
/**
 * The HTTP socket of the client (`GlpiSocket`): the base URL it is built on,
 * the header set every request carries, the request configuration `call`
 * hands to the HTTP library, and the retry rule for requests that time out.
 *
 * The HTTP library itself is not modelled: a socket is the base URL and the
 * header set it currently sends (the one it was created with, or the one the
 * last `setHeader` built), `call` is the configuration object it builds, and
 * a transmission is an outcome drawn from a caller-supplied sequence of
 * attempt results.
 */
module GlpiSocket {
  import opened Wrappers
  import opened JsStrings
  import opened JsValues

  // ---------------------------------------------------------------------------
  // Base URL

  /** `url.replace(/\/$/, '') + '/'`: one trailing slash is dropped, then one is added. */
  function NormalizeUrl(url: string): (r: string)
    ensures EndsWith(r, '/')
    ensures EndsWith(url, '/') ==> r == url
    ensures !EndsWith(url, '/') ==> r == url + "/"
  {
    (if EndsWith(url, '/') then url[..|url| - 1] else url) + "/"
  }

  /** Normalising a normalised URL changes nothing. */
  lemma NormalizeUrlIdempotent(url: string)
    ensures NormalizeUrl(NormalizeUrl(url)) == NormalizeUrl(url)
  {
  }

  /**
   * Normalisation never loses text: the URL is a prefix of its normalised
   * form, which adds at most the one slash.
   */
  lemma NormalizeUrlExtends(url: string)
    ensures StartsWith(NormalizeUrl(url), url)
    ensures |NormalizeUrl(url)| <= |url| + 1
  {
  }

  /** Only one slash is removed: a URL ending in `//` keeps both. */
  lemma NormalizeUrlKeepsDoubleSlash(prefix: string)
    ensures NormalizeUrl(prefix + "//") == prefix + "//"
  {
  }

  // ---------------------------------------------------------------------------
  // Headers

  /** The JSON headers every socket starts from. */
  const DefaultHeaders: Fields :=
    map["Accept" := Str("application/json"), "Content-Type" := Str("application/json")]

  /** `Object.assign({Accept, Content-Type}, extraHeaders)`: the caller's headers override key by key. */
  function MakeHeaders(extra: Fields): (h: Fields)
    ensures h.Keys == DefaultHeaders.Keys + extra.Keys
    ensures forall k :: k in extra ==> h[k] == extra[k]
    ensures forall k :: k in DefaultHeaders && k !in extra ==> h[k] == DefaultHeaders[k]
  {
    DefaultHeaders + extra
  }

  /** A socket: the normalised base URL and the headers of every request. */
  datatype Socket = Socket(baseUrl: string, headers: Fields)

  /** `headers: any = {}`: an omitted header object is the empty one. */
  function HeadersArg(headers: Option<Fields>): Fields {
    headers.GetOr(map[])
  }

  /** `new GlpiSocket(url, headers)` */
  function NewSocket(url: string, headers: Option<Fields>): (s: Socket)
    ensures s.baseUrl == NormalizeUrl(url)
    ensures s.headers == MakeHeaders(HeadersArg(headers))
  {
    SetHeader(Socket(NormalizeUrl(url), map[]), headers)
  }

  /** `setHeader(headers)`: a fresh header set built from the defaults, whatever was set before. */
  function SetHeader(s: Socket, headers: Option<Fields>): (r: Socket)
    ensures r.baseUrl == s.baseUrl
    ensures r.headers == MakeHeaders(HeadersArg(headers))
    ensures r.headers.Keys == DefaultHeaders.Keys + HeadersArg(headers).Keys
    ensures forall k :: k in HeadersArg(headers) ==> r.headers[k] == HeadersArg(headers)[k]
  {
    Socket(s.baseUrl, MakeHeaders(HeadersArg(headers)))
  }

  /** Without caller headers a socket sends only the JSON defaults: no credentials. */
  lemma NoCredentialsByDefault(url: string)
    ensures NewSocket(url, None).headers == DefaultHeaders
    ensures "Authorization" !in NewSocket(url, None).headers
    ensures "App-Token" !in NewSocket(url, None).headers
    ensures "Session-Token" !in NewSocket(url, None).headers
  {
  }

  /**
   * `setHeader` replaces rather than merges: the second call alone decides the
   * headers, so a header of the first call that the second omits is gone.
   */
  lemma SetHeaderReplaces(s: Socket, first: Option<Fields>, second: Option<Fields>, k: string)
    ensures SetHeader(SetHeader(s, first), second) == SetHeader(s, second)
    ensures k in HeadersArg(first) && k !in HeadersArg(second) && k !in DefaultHeaders
      ==> k !in SetHeader(SetHeader(s, first), second).headers
  {
  }

  // ---------------------------------------------------------------------------
  // Request configuration

  /** A property of a request configuration: a text (`url`, `method`) or an object (`params`, `data`). */
  datatype ConfigValue = Text(text: string) | Object(fields: Fields)

  type Config = map<string, ConfigValue>

  /**
   * `call(method, path, options)`: `Object.assign({url: path, method:
   * method.toLocaleLowerCase()}, options)`, with `options` defaulting to `{}`.
   */
  function CallConfig(verb: string, path: string, options: Option<Config>): (c: Config)
    ensures c.Keys == {"url", "method"} + options.GetOr(map[]).Keys
    ensures forall k :: k in options.GetOr(map[]) ==> c[k] == options.GetOr(map[])[k]
    ensures "url" !in options.GetOr(map[]) ==> c["url"] == Text(path)
    ensures "method" !in options.GetOr(map[]) ==> c["method"] == Text(AsciiLower(verb))
  {
    map["url" := Text(path), "method" := Text(AsciiLower(verb))] + options.GetOr(map[])
  }

  /** The method sent does not depend on the case the caller wrote it in. */
  lemma CallConfigIgnoresMethodCase(verb: string, path: string, options: Option<Config>)
    ensures CallConfig(AsciiLower(verb), path, options) == CallConfig(verb, path, options)
  {
    AsciiLowerIdempotent(verb);
  }

  // ---------------------------------------------------------------------------
  // Retrying requests that time out

  /** The result of one transmission of a request. */
  datatype Outcome =
    | Resolved(data: Value)
      /** A failed transmission: the error's `code`, and whether it carries its request `config`. */
    | Rejected(code: Option<string>, hasConfig: bool)

  /** The retry limit: `error.config.retries < 3`. */
  const MaxRetries: nat := 3

  /** The interceptor's condition for sending the request again after the `retries`-th retry failed. */
  predicate Retryable(o: Outcome, retries: nat) {
    o.Rejected? && o.code == Some("ECONNABORTED") && o.hasConfig && retries < MaxRetries
  }

  /** What a request comes to: the final outcome and how many transmissions it took. */
  datatype Delivery = Delivery(outcome: Outcome, transmissions: nat)

  /**
   * The request once `retries` retries have been made: transmission number
   * `retries` (counting from 0) has outcome `attempts(retries)`; a retryable
   * failure bumps the counter and sends again, anything else ends the request.
   */
  function Transmit(attempts: nat -> Outcome, retries: nat): (d: Delivery)
    ensures d.transmissions > retries
    ensures d.outcome == attempts(d.transmissions - 1)
    ensures !Retryable(d.outcome, d.transmissions - 1)
    ensures forall n :: retries <= n < d.transmissions - 1 ==> Retryable(attempts(n), n)
    decreases MaxRetries - retries
  {
    if Retryable(attempts(retries), retries) then Transmit(attempts, retries + 1)
    else Delivery(attempts(retries), retries + 1)
  }

  /**
   * A request through the socket: the counter starts at 0, so the caller sees
   * the first outcome that is not a retryable timeout, and every transmission
   * before it timed out with its config.
   */
  function Request(attempts: nat -> Outcome): (d: Delivery)
    ensures d.transmissions >= 1 && d.outcome == attempts(d.transmissions - 1)
    ensures d.transmissions <= MaxRetries + 1
    ensures !Retryable(d.outcome, d.transmissions - 1)
    ensures forall n :: 0 <= n < d.transmissions - 1 ==> Retryable(attempts(n), n)
    ensures forall n :: 0 <= n < d.transmissions - 1 ==>
      attempts(n).Rejected? && attempts(n).code == Some("ECONNABORTED") && attempts(n).hasConfig
  {
    Transmit(attempts, 0)
  }

  /** At most three retries: at most four transmissions. */
  lemma RequestBounded(attempts: nat -> Outcome)
    ensures 1 <= Request(attempts).transmissions <= MaxRetries + 1
  {
  }

  /** A success or any failure other than a timeout with its config ends the request at once. */
  lemma OtherFailuresNotRetried(attempts: nat -> Outcome)
    requires !(attempts(0).Rejected? && attempts(0).code == Some("ECONNABORTED") && attempts(0).hasConfig)
    ensures Request(attempts) == Delivery(attempts(0), 1)
  {
  }

  /**
   * The request stops at the first transmission that is not a timeout with a
   * config, or at the fourth, whichever comes first.
   */
  function FirstStop(attempts: nat -> Outcome, n: nat): (k: nat)
    requires n <= MaxRetries
    ensures n <= k <= MaxRetries
    decreases MaxRetries - n
  {
    if n == MaxRetries || !Retryable(attempts(n), n) then n else FirstStop(attempts, n + 1)
  }

  /** The retry loop agrees with the first-stop description. */
  lemma TransmitStopsFirst(attempts: nat -> Outcome, n: nat)
    requires n <= MaxRetries
    ensures Transmit(attempts, n) == Delivery(attempts(FirstStop(attempts, n)), FirstStop(attempts, n) + 1)
  {
  }

  /** Four timeouts in a row: the fourth failure is the one the caller sees. */
  lemma PersistentTimeoutGivesUp(attempts: nat -> Outcome)
    requires forall n :: attempts(n) == Rejected(Some("ECONNABORTED"), true)
    ensures Request(attempts) == Delivery(Rejected(Some("ECONNABORTED"), true), MaxRetries + 1)
  {
    TransmitStopsFirst(attempts, 0);
  }
}

=== FILE: serializer.dfy ===
/**
 * The query-parameter flattener of the API client (`serializeArrayForGetMethod`).
 *
 * Each listed key whose option holds an array is replaced by bracketed keys:
 * element `i`'s property `f` becomes `k[i][f]`.  A property that is itself an
 * array is flattened by the same routine under its own name, and each of its
 * keys is grafted on as `k[i][f]` followed by that key with the first
 * occurrence of `k` cut out, which for `f == k` gives `k[i][k][j][g]`.
 *
 * The flattening is modelled as the sequence of property writes the loops
 * perform, in order; the result object is the options with those writes
 * applied and the processed keys deleted.
 */
module ParamSerializer {
  import opened Wrappers
  import opened JsStrings
  import opened JsValues

  /** The error `Object.keys` throws when an array element is `null` or `undefined`. */
  datatype TypeError = KeysOfNullOrUndefined

  /** `[${i}][${f}]`: the bracket path of property `f` of element `i`. */
  function Path(index: nat, f: string): string {
    "[" + Decimal(index) + "][" + f + "]"
  }

  /** `${k}[${i}][${f}]` */
  function FieldKey(k: string, index: nat, f: string): string {
    k + Path(index, f)
  }

  /**
   * `Object.keys(item)` paired with `item[key]`: an object's own properties, an
   * array's or a string's positions, nothing for a boolean or a number.
   */
  function OwnEntries(item: Value): (r: seq<Entry>)
    ensures forall e :: e in r && e.value.Arr? ==> e.value < item
    ensures item.Obj? ==> r == item.entries
    ensures item.Arr? ==> |r| == |item.items|
    ensures item.Arr? ==> forall j :: 0 <= j < |r| ==> r[j] == Entry(Decimal(j), item.items[j])
    ensures item.Str? ==> |r| == |item.s| && forall e :: e in r ==> e.value.Str?
    ensures item.Str? ==> forall j :: 0 <= j < |r| ==> r[j] == Entry(Decimal(j), Str([item.s[j]]))
    ensures item.Bool? || item.Num? || item.Null? || item.Undefined? ==> r == []
  {
    match item
    case Undefined => []
    case Null => []
    case Bool(_) => []
    case Num(_) => []
    case Str(s) => seq(|s|, j requires 0 <= j < |s| => Entry(Decimal(j), Str([s[j]])))
    case Arr(xs) => seq(|xs|, j requires 0 <= j < |xs| => Entry(Decimal(j), xs[j]))
    case Obj(es) => es
  }

  /** The parts joined in order. */
  function Concat<T>(parts: seq<seq<T>>): seq<T>
    decreases |parts|
  {
    if parts == [] then [] else parts[0] + Concat(parts[1..])
  }

  /** The writes made for the array under key `k`: those of each element in turn. */
  function ArrayWrites(k: string, arr: seq<Value>): seq<Entry>
    decreases Arr(arr), 2
  {
    Concat(seq(|arr|, i requires 0 <= i < |arr| => ItemWrites(k, i, arr[i])))
  }

  /** The writes made for element `index`: those of each of its properties in turn. */
  function ItemWrites(k: string, index: nat, item: Value): seq<Entry>
    decreases item, 1
  {
    var n := |OwnEntries(item)|;
    Concat(seq(n, j requires 0 <= j < n => EntryWrites(k, index, item, j)))
  }

  /** The writes made for property `j` of element `index`. */
  function EntryWrites(k: string, index: nat, item: Value, j: nat): seq<Entry>
    requires j < |OwnEntries(item)|
    decreases item, 0
  {
    var e := OwnEntries(item)[j];
    if e.value.Arr? then
      var sub := Subitem(e.key, e.value.items);
      seq(|sub|, t requires 0 <= t < |sub| =>
        Entry(FieldKey(k, index, e.key) + RemoveFirst(sub[t].key, k), sub[t].value))
    else
      [Entry(FieldKey(k, index, e.key), e.value)]
  }

  /**
   * The object the recursive call returns for `{[f]: ys}`: a copy of it, the
   * writes for `ys` under `f`, then `f` deleted.
   */
  function Subitem(f: string, ys: seq<Value>): seq<Entry>
    decreases Arr(ys), 3
  {
    Delete(AssignAll([Entry(f, Arr(ys))], ArrayWrites(f, ys)), f)
  }

  /** `Object.keys` throws on `null` and `undefined`. */
  predicate KeysThrow(item: Value) {
    item.Null? || item.Undefined?
  }

  /** Flattening `arr` reaches a `null` or `undefined` element, at any depth. */
  predicate ArrayThrows(arr: seq<Value>)
    decreases Arr(arr), 1
  {
    exists i :: 0 <= i < |arr| && ItemThrows(arr[i])
  }

  predicate ItemThrows(item: Value)
    decreases item, 0
  {
    || KeysThrow(item)
    || exists j :: 0 <= j < |OwnEntries(item)| && OwnEntries(item)[j].value.Arr? &&
         ArrayThrows(OwnEntries(item)[j].value.items)
  }

  /** The guard `!options[k] || !Array.isArray(options[k])` that skips a key. */
  predicate Skipped(options: Fields, k: string) {
    k !in options || !Truthy(options[k]) || !options[k].Arr?
  }

  /** The loop over `originalKeys`, from `keys` on, with the result object so far. */
  function SerializeFrom(keys: seq<string>, options: Fields, acc: Fields): Result<Fields, TypeError>
    decreases |keys|
  {
    if keys == [] then Success(acc)
    else if Skipped(options, keys[0]) then SerializeFrom(keys[1..], options, acc)
    else if ArrayThrows(options[keys[0]].items) then Failure(KeysOfNullOrUndefined)
    else SerializeFrom(keys[1..], options, WriteAll(acc, ArrayWrites(keys[0], options[keys[0]].items)) - {keys[0]})
  }
}

=== FILE: serializer_proofs.dfy ===
/**
 * What the flattener guarantees.  The guarantees about particular keys assume
 * that the listed keys contain no `[` and that the objects being flattened
 * have distinct property names without `]`; under those assumptions no two
 * different properties can produce the same bracketed key.
 */
module SerializerProperties {
  import opened Wrappers
  import opened JsStrings
  import opened JsValues
  import opened ParamSerializer

  /** An element whose property names are distinct and free of `]`. */
  predicate PlainKeys(item: Value) {
    var es := OwnEntries(item);
    && (forall j :: 0 <= j < |es| ==> ']' !in es[j].key)
    && (forall j, j' :: 0 <= j < j' < |es| ==> es[j].key != es[j'].key)
  }

  // ---------------------------------------------------------------------------
  // Bracketed keys

  lemma FieldKeyPrefix(k: string, index: nat, f: string, rest: string)
    ensures StartsWith(FieldKey(k, index, f) + rest, k + "[")
    ensures '[' in FieldKey(k, index, f) + rest
  {
    var s := FieldKey(k, index, f) + rest;
    assert s == (k + "[") + (Decimal(index) + "][" + f + "]" + rest);
    assert s[|k|] == '[';
  }

  /** Two field keys under the same array key agree on the element index, and on the field and the tail when the fields have no `]`. */
  lemma FieldKeyInjective(k: string, i: nat, f: string, r: string, i2: nat, f2: string, r2: string)
    requires FieldKey(k, i, f) + r == FieldKey(k, i2, f2) + r2
    ensures i == i2
    ensures ']' !in f && ']' !in f2 ==> f == f2 && r == r2
  {
    var a := k + "[";
    var x := Decimal(i) + [']'] + ("[" + f + "]" + r);
    var x2 := Decimal(i2) + [']'] + ("[" + f2 + "]" + r2);
    assert Path(i, f) + r == "[" + x;
    assert Path(i2, f2) + r2 == "[" + x2;
    assert FieldKey(k, i, f) + r == a + x;
    assert FieldKey(k, i2, f2) + r2 == a + x2;
    assert x == (a + x)[|a|..];
    assert x2 == (a + x2)[|a|..];
    assert ']' !in Decimal(i) by {
      assert forall c :: c in Decimal(i) ==> IsDigit(c);
    }
    assert ']' !in Decimal(i2) by {
      assert forall c :: c in Decimal(i2) ==> IsDigit(c);
    }
    SplitAtFirst(Decimal(i), "[" + f + "]" + r, Decimal(i2), "[" + f2 + "]" + r2, ']');
    DecimalInjective(i, i2);
    if ']' !in f && ']' !in f2 {
      assert ("[" + f + "]" + r)[1..] == f + [']'] + r;
      assert ("[" + f2 + "]" + r2)[1..] == f2 + [']'] + r2;
      SplitAtFirst(f, r, f2, r2, ']');
    }
  }

  /** A string begins with `a[` and with `b[` for bracket-free `a`, `b` only when `a == b`. */
  lemma PrefixKeyUnique(s: string, a: string, b: string)
    requires '[' !in a && '[' !in b
    requires StartsWith(s, a + "[") && StartsWith(s, b + "[")
    ensures a == b
  {
    assert s == a + ['['] + s[|a| + 1..];
    assert s == b + ['['] + s[|b| + 1..];
    SplitAtFirst(a, s[|a| + 1..], b, s[|b| + 1..], '[');
  }

  // ---------------------------------------------------------------------------
  // Where a write comes from

  /** An element of the joined parts is an element of one of the parts. */
  lemma {:induction false} ConcatMember<T>(parts: seq<seq<T>>, x: T)
    ensures x in Concat(parts) <==> exists p :: 0 <= p < |parts| && x in parts[p]
    decreases |parts|
  {
    if parts != [] {
      ConcatMember(parts[1..], x);
      if exists p :: 0 <= p < |parts| && x in parts[p] {
        var p :| 0 <= p < |parts| && x in parts[p];
        if p > 0 {
          assert parts[1..][p - 1] == parts[p];
        }
      }
    }
  }

  /** Every write of an array belongs to one property of one element. */
  lemma WriteOrigin(k: string, arr: seq<Value>, w: Entry) returns (i: nat, j: nat)
    requires w in ArrayWrites(k, arr)
    ensures i < |arr| && j < |OwnEntries(arr[i])|
    ensures w in EntryWrites(k, i, arr[i], j)
  {
    var parts := seq(|arr|, i requires 0 <= i < |arr| => ItemWrites(k, i, arr[i]));
    ConcatMember(parts, w);
    i :| 0 <= i < |arr| && w in parts[i];
    var n := |OwnEntries(arr[i])|;
    var parts' := seq(n, j requires 0 <= j < n => EntryWrites(k, i, arr[i], j));
    ConcatMember(parts', w);
    j :| 0 <= j < n && w in parts'[j];
  }

  /** Every write for one property of one element is a write of the array. */
  lemma WriteIncluded(k: string, arr: seq<Value>, i: nat, j: nat, w: Entry)
    requires i < |arr| && j < |OwnEntries(arr[i])|
    requires w in EntryWrites(k, i, arr[i], j)
    ensures w in ArrayWrites(k, arr)
  {
    var n := |OwnEntries(arr[i])|;
    var parts' := seq(n, j requires 0 <= j < n => EntryWrites(k, i, arr[i], j));
    assert w in parts'[j];
    ConcatMember(parts', w);
    var parts := seq(|arr|, i requires 0 <= i < |arr| => ItemWrites(k, i, arr[i]));
    assert w in parts[i];
    ConcatMember(parts, w);
  }

  /** The key of a write: the field key of its property, then (for a nested array) the grafted sub-key. */
  lemma EntryWriteShape(k: string, index: nat, item: Value, j: nat, w: Entry)
    requires j < |OwnEntries(item)|
    requires w in EntryWrites(k, index, item, j)
    ensures var e := OwnEntries(item)[j];
      if e.value.Arr? then
        exists s :: Entry(s, w.value) in Subitem(e.key, e.value.items) &&
          w.key == FieldKey(k, index, e.key) + RemoveFirst(s, k)
      else
        w == Entry(FieldKey(k, index, e.key), e.value)
  {
    var e := OwnEntries(item)[j];
    if e.value.Arr? {
      var sub := Subitem(e.key, e.value.items);
      var t :| 0 <= t < |sub| && w == Entry(FieldKey(k, index, e.key) + RemoveFirst(sub[t].key, k), sub[t].value);
      assert sub[t] == Entry(sub[t].key, w.value);
    }
  }

  /** Every key written while flattening the array under `k` begins with `k[`. */
  lemma WriteKeyPrefix(k: string, arr: seq<Value>, w: Entry)
    requires w in ArrayWrites(k, arr)
    ensures StartsWith(w.key, k + "[")
    ensures '[' in w.key
  {
    var i, j := WriteOrigin(k, arr, w);
    var e := OwnEntries(arr[i])[j];
    EntryWriteShape(k, i, arr[i], j, w);
    if e.value.Arr? {
      var s :| Entry(s, w.value) in Subitem(e.key, e.value.items) &&
        w.key == FieldKey(k, i, e.key) + RemoveFirst(s, k);
      FieldKeyPrefix(k, i, e.key, RemoveFirst(s, k));
    } else {
      FieldKeyPrefix(k, i, e.key, "");
      assert w.key == FieldKey(k, i, e.key) + "";
    }
  }

  /** The recursive call's object holds exactly writes of the nested array. */
  lemma SubitemOrigin(f: string, ys: seq<Value>, e: Entry)
    requires e in Subitem(f, ys)
    ensures e in ArrayWrites(f, ys)
    ensures StartsWith(e.key, f + "[")
  {
    AssignAllOrigin([Entry(f, Arr(ys))], ArrayWrites(f, ys));
    WriteKeyPrefix(f, ys, e);
  }

  /** A nested array's sub-key always keeps something after `k` is cut out of it. */
  lemma NestedTailNonEmpty(k: string, f: string, ys: seq<Value>, s: string, v: Value)
    requires '[' !in k
    requires Entry(s, v) in Subitem(f, ys)
    ensures RemoveFirst(s, k) != ""
  {
    SubitemOrigin(f, ys, Entry(s, v));
    assert StartsWith(s, f + "[");
    assert s[|f|] == '[';
    assert '[' in s;
    assert s != k;
    if StartsWith(s, k) {
      assert |RemoveFirst(s, k)| == |s| - |k| > 0;
    }
  }

  /** A write's key split into the field key of its property and a tail, empty exactly for a plain property. */
  lemma WriteDecomposed(k: string, arr: seq<Value>, w: Entry) returns (i: nat, j: nat, rest: string)
    requires '[' !in k
    requires w in ArrayWrites(k, arr)
    ensures i < |arr| && j < |OwnEntries(arr[i])|
    ensures w in EntryWrites(k, i, arr[i], j)
    ensures w.key == FieldKey(k, i, OwnEntries(arr[i])[j].key) + rest
    ensures OwnEntries(arr[i])[j].value.Arr? ==> rest != ""
    ensures !OwnEntries(arr[i])[j].value.Arr? ==> rest == "" && w.value == OwnEntries(arr[i])[j].value
  {
    i, j := WriteOrigin(k, arr, w);
    var e := OwnEntries(arr[i])[j];
    EntryWriteShape(k, i, arr[i], j, w);
    if e.value.Arr? {
      var s :| Entry(s, w.value) in Subitem(e.key, e.value.items) &&
        w.key == FieldKey(k, i, e.key) + RemoveFirst(s, k);
      NestedTailNonEmpty(k, e.key, e.value.items, s, w.value);
      rest := RemoveFirst(s, k);
    } else {
      rest := "";
      assert w.key == FieldKey(k, i, e.key) + rest;
    }
  }

  // ---------------------------------------------------------------------------
  // One array

  /** Flattening an array writes `k[i][f]` for a non-array property `f` of element `i`, and only its value. */
  lemma FlatFieldWrites(k: string, arr: seq<Value>, i: nat, j: nat)
    requires '[' !in k
    requires i < |arr| && j < |OwnEntries(arr[i])|
    requires PlainKeys(arr[i])
    requires !OwnEntries(arr[i])[j].value.Arr?
    ensures var e := OwnEntries(arr[i])[j];
      && Entry(FieldKey(k, i, e.key), e.value) in ArrayWrites(k, arr)
      && forall w :: w in ArrayWrites(k, arr) && w.key == FieldKey(k, i, e.key) ==> w.value == e.value
  {
    var e := OwnEntries(arr[i])[j];
    var key := FieldKey(k, i, e.key);
    WriteIncluded(k, arr, i, j, Entry(key, e.value));
    forall w | w in ArrayWrites(k, arr) && w.key == key
      ensures w.value == e.value
    {
      var i2, j2, rest := WriteDecomposed(k, arr, w);
      var e2 := OwnEntries(arr[i2])[j2];
      assert key + "" == FieldKey(k, i2, e2.key) + rest;
      FieldKeyInjective(k, i, e.key, "", i2, e2.key, rest);
      assert j == j2;
    }
  }

  /** The key a nested array's plain property lands at: `k[i][k][i2][g]`. */
  function NestedKey(k: string, i: nat, i2: nat, g: string): string {
    FieldKey(k, i, k) + Path(i2, g)
  }

  /** The recursive call's object maps `k[i2][g]` to the value of property `g` of `ys[i2]`, and to nothing else. */
  lemma SubitemFlatField(k: string, ys: seq<Value>, i2: nat, j2: nat)
    requires '[' !in k
    requires i2 < |ys| && j2 < |OwnEntries(ys[i2])| && PlainKeys(ys[i2])
    requires !OwnEntries(ys[i2])[j2].value.Arr?
    ensures var g := OwnEntries(ys[i2])[j2];
      && Entry(FieldKey(k, i2, g.key), g.value) in Subitem(k, ys)
      && forall e :: e in Subitem(k, ys) && e.key == FieldKey(k, i2, g.key) ==> e.value == g.value
  {
    var g := OwnEntries(ys[i2])[j2];
    var s := FieldKey(k, i2, g.key);
    FlatFieldWrites(k, ys, i2, j2);
    AssignAllAgreed([Entry(k, Arr(ys))], ArrayWrites(k, ys), s, g.value);
    assert |s| > |k|;
    forall e | e in Subitem(k, ys) && e.key == s
      ensures e.value == g.value
    {
      SubitemOrigin(k, ys, e);
    }
  }

  /** Each property of the recursive call's object is grafted onto the field key. */
  lemma GraftedWrite(k: string, index: nat, item: Value, j: nat, s: string, v: Value)
    requires j < |OwnEntries(item)|
    requires OwnEntries(item)[j].value.Arr?
    requires Entry(s, v) in Subitem(OwnEntries(item)[j].key, OwnEntries(item)[j].value.items)
    ensures Entry(FieldKey(k, index, OwnEntries(item)[j].key) + RemoveFirst(s, k), v) in EntryWrites(k, index, item, j)
  {
    var e := OwnEntries(item)[j];
    var sub := Subitem(e.key, e.value.items);
    var t :| 0 <= t < |sub| && sub[t] == Entry(s, v);
    assert EntryWrites(k, index, item, j)[t] == Entry(FieldKey(k, index, e.key) + RemoveFirst(s, k), v);
  }

  /** Only the grafted sub-key `k[i2][g]` of property `k` of element `i` lands at `k[i][k][i2][g]`. */
  lemma NestedKeyUnique(k: string, arr: seq<Value>, i: nat, j: nat, i2: nat, g: string, w: Entry)
    requires '[' !in k
    requires i < |arr| && j < |OwnEntries(arr[i])| && PlainKeys(arr[i])
    requires OwnEntries(arr[i])[j].key == k && OwnEntries(arr[i])[j].value.Arr?
    requires w in ArrayWrites(k, arr) && w.key == NestedKey(k, i, i2, g)
    ensures Entry(FieldKey(k, i2, g), w.value) in Subitem(k, OwnEntries(arr[i])[j].value.items)
  {
    var e := OwnEntries(arr[i])[j];
    var tail := Path(i2, g);
    assert ']' !in k by {
      assert PlainKeys(arr[i]);
    }
    var i3, j3, rest := WriteDecomposed(k, arr, w);
    var e3 := OwnEntries(arr[i3])[j3];
    FieldKeyInjective(k, i, k, tail, i3, e3.key, rest);
    assert j3 == j;
    EntryWriteShape(k, i, arr[i], j, w);
    var s' :| Entry(s', w.value) in Subitem(k, e.value.items) && w.key == FieldKey(k, i, k) + RemoveFirst(s', k);
    SubitemOrigin(k, e.value.items, Entry(s', w.value));
    GraftDetermines(k, FieldKey(k, i, k), s', tail);
  }

  /** A sub-key beginning with `k[` is recovered from its grafted form. */
  lemma GraftDetermines(k: string, a: string, s: string, tail: string)
    requires StartsWith(s, k + "[")
    requires a + RemoveFirst(s, k) == a + tail
    ensures s == k + tail
  {
    assert RemoveFirst(s, k) == (a + RemoveFirst(s, k))[|a|..] == (a + tail)[|a|..] == tail;
    assert s[..|k|] == (k + "[")[..|k|] == k;
    assert s == s[..|k|] + s[|k|..];
  }

  /**
   * Element `i` has a property named `k` (like the outer key) holding an array
   * `ys`; a non-array property `g` of `ys[i2]` is written at `k[i][k][i2][g]`,
   * and only with its value.
   */
  lemma NestedFieldWrites(k: string, arr: seq<Value>, i: nat, j: nat, i2: nat, j2: nat)
    requires '[' !in k
    requires i < |arr| && j < |OwnEntries(arr[i])| && PlainKeys(arr[i])
    requires OwnEntries(arr[i])[j].key == k && OwnEntries(arr[i])[j].value.Arr?
    requires i2 < |OwnEntries(arr[i])[j].value.items|
    requires var y := OwnEntries(arr[i])[j].value.items[i2];
      j2 < |OwnEntries(y)| && PlainKeys(y) && !OwnEntries(y)[j2].value.Arr?
    ensures var g := OwnEntries(OwnEntries(arr[i])[j].value.items[i2])[j2];
      && Entry(NestedKey(k, i, i2, g.key), g.value) in ArrayWrites(k, arr)
      && forall w :: w in ArrayWrites(k, arr) && w.key == NestedKey(k, i, i2, g.key) ==> w.value == g.value
  {
    var e := OwnEntries(arr[i])[j];
    var ys := e.value.items;
    var g := OwnEntries(ys[i2])[j2];
    var s := FieldKey(k, i2, g.key);
    SubitemFlatField(k, ys, i2, j2);
    GraftedWrite(k, i, arr[i], j, s, g.value);
    assert RemoveFirst(s, k) == Path(i2, g.key);
    WriteIncluded(k, arr, i, j, Entry(NestedKey(k, i, i2, g.key), g.value));
    forall w | w in ArrayWrites(k, arr) && w.key == NestedKey(k, i, i2, g.key)
      ensures w.value == g.value
    {
      NestedKeyUnique(k, arr, i, j, i2, g.key, w);
    }
  }

  // ---------------------------------------------------------------------------
  // The whole loop over the listed keys

  /** Listed keys with no `[`: true of every call in the client. */
  predicate PlainListedKeys(keys: seq<string>) {
    forall k :: k in keys ==> '[' !in k
  }

  /** The writes of every listed key that holds an array, in order. */
  function AllWrites(keys: seq<string>, options: Fields): seq<Entry>
    decreases |keys|
  {
    if keys == [] then []
    else
      (if Skipped(options, keys[0]) then [] else ArrayWrites(keys[0], options[keys[0]].items))
      + AllWrites(keys[1..], options)
  }

  /** The listed keys that hold an array: the ones deleted. */
  function Processed(keys: seq<string>, options: Fields): set<string> {
    set k | k in keys && !Skipped(options, k)
  }

  /** Some listed array reaches a `null` or `undefined` element. */
  predicate AnyThrows(keys: seq<string>, options: Fields) {
    exists k :: k in keys && !Skipped(options, k) && ArrayThrows(options[k].items)
  }

  lemma {:induction false} AllWritesMember(keys: seq<string>, options: Fields, w: Entry)
    ensures w in AllWrites(keys, options) <==>
      exists k :: k in keys && !Skipped(options, k) && w in ArrayWrites(k, options[k].items)
    decreases |keys|
  {
    if keys != [] {
      AllWritesMember(keys[1..], options, w);
      assert forall k :: k in keys <==> k == keys[0] || k in keys[1..];
    }
  }

  /** Every write of the loop carries a `[`, so it never touches a listed key. */
  lemma AllWritesBracketed(keys: seq<string>, options: Fields, w: Entry)
    requires w in AllWrites(keys, options)
    ensures '[' in w.key
  {
    AllWritesMember(keys, options, w);
    var k :| k in keys && !Skipped(options, k) && w in ArrayWrites(k, options[k].items);
    WriteKeyPrefix(k, options[k].items, w);
  }

  lemma {:induction false} SerializeFromFails(keys: seq<string>, options: Fields, acc: Fields)
    ensures SerializeFrom(keys, options, acc).Failure? <==> AnyThrows(keys, options)
    decreases |keys|
  {
    if keys != [] {
      assert forall k :: k in keys <==> k == keys[0] || k in keys[1..];
      if Skipped(options, keys[0]) || !ArrayThrows(options[keys[0]].items) {
        var acc' := if Skipped(options, keys[0]) then acc
          else WriteAll(acc, ArrayWrites(keys[0], options[keys[0]].items)) - {keys[0]};
        SerializeFromFails(keys[1..], options, acc');
      }
    }
  }

  /** The loop's result: the writes applied to the options, then the processed keys deleted. */
  lemma {:induction false} SerializeFromShape(keys: seq<string>, options: Fields, acc: Fields)
    requires PlainListedKeys(keys)
    requires !AnyThrows(keys, options)
    ensures SerializeFrom(keys, options, acc) ==
      Success(WriteAll(acc, AllWrites(keys, options)) - Processed(keys, options))
    decreases |keys|
  {
    if keys == [] {
      assert Processed(keys, options) == {};
      assert WriteAll(acc, AllWrites(keys, options)) == acc;
      assert acc - {} == acc;
    } else {
      var k := keys[0];
      assert forall k' :: k' in keys <==> k' == k || k' in keys[1..];
      var rest := AllWrites(keys[1..], options);
      if Skipped(options, k) {
        SerializeFromShape(keys[1..], options, acc);
        assert AllWrites(keys, options) == rest;
        assert Processed(keys, options) == Processed(keys[1..], options);
      } else {
        var w0 := ArrayWrites(k, options[k].items);
        var acc' := WriteAll(acc, w0) - {k};
        SerializeFromShape(keys[1..], options, acc');
        forall w | w in rest
          ensures w.key != k
        {
          AllWritesBracketed(keys[1..], options, w);
        }
        WriteAllDelete(WriteAll(acc, w0), rest, k);
        WriteAllAppend(acc, w0, rest);
        assert AllWrites(keys, options) == w0 + rest;
        assert Processed(keys, options) == {k} + Processed(keys[1..], options);
        assert WriteAll(acc', rest) - Processed(keys[1..], options)
            == WriteAll(acc, w0 + rest) - Processed(keys, options);
      }
    }
  }

  // ---------------------------------------------------------------------------
  // The properties of `serializeArrayForGetMethod(originalKeys, options)`

  /**
   * `serializeArrayForGetMethod(originalKeys, options)`: it throws exactly when
   * a listed array reaches a `null` or `undefined` element; otherwise, for
   * bracket-free listed keys, the result is the options with every listed
   * array's writes applied in order and those keys deleted.
   */
  function Serialize(originalKeys: seq<string>, options: Fields): (r: Result<Fields, TypeError>)
    ensures r.Failure? <==> AnyThrows(originalKeys, options)
    ensures PlainListedKeys(originalKeys) && r.Success? ==>
      r.value == WriteAll(options, AllWrites(originalKeys, options)) - Processed(originalKeys, options)
  {
    SerializeFromFails(originalKeys, options, options);
    if PlainListedKeys(originalKeys) && !AnyThrows(originalKeys, options) then
      SerializeFromShape(originalKeys, options, options);
      SerializeFrom(originalKeys, options, options)
    else
      SerializeFrom(originalKeys, options, options)
  }

  /**
   * A key that is not a processed array key and does not look like a key the
   * loop writes (`k[...` for a listed `k`) is copied unchanged, or stays absent.
   */
  lemma SerializeKeepsOtherKeys(keys: seq<string>, options: Fields, key: string)
    requires PlainListedKeys(keys)
    requires Serialize(keys, options).Success?
    requires key !in keys || Skipped(options, key)
    requires forall k :: k in keys ==> !StartsWith(key, k + "[")
    ensures key in Serialize(keys, options).value <==> key in options
    ensures key in options ==> Serialize(keys, options).value[key] == options[key]
  {
    SerializeFromShape(keys, options, options);
    forall w | w in AllWrites(keys, options)
      ensures w.key != key
    {
      AllWritesMember(keys, options, w);
      var k :| k in keys && !Skipped(options, k) && w in ArrayWrites(k, options[k].items);
      WriteKeyPrefix(k, options[k].items, w);
    }
    WriteAllUntouched(options, AllWrites(keys, options), key);
  }

  /** A listed key that does not hold an array is skipped: its option passes through untouched. */
  lemma SerializeSkipsNonArrays(keys: seq<string>, options: Fields, key: string)
    requires PlainListedKeys(keys)
    requires Serialize(keys, options).Success?
    requires key in keys && (key !in options || !options[key].Arr?)
    ensures key in Serialize(keys, options).value <==> key in options
    ensures key in options ==> Serialize(keys, options).value[key] == options[key]
  {
    forall k | k in keys
      ensures !StartsWith(key, k + "[")
    {
      if |k| + 1 <= |key| {
        assert key[..|k| + 1][|k|] == key[|k|] && key[|k|] in key;
      }
    }
    SerializeKeepsOtherKeys(keys, options, key);
  }

  /** A listed key holding an array is removed from the result. */
  lemma SerializeRemovesArrayKeys(keys: seq<string>, options: Fields, key: string)
    requires PlainListedKeys(keys)
    requires Serialize(keys, options).Success?
    requires key in keys && key in options && options[key].Arr?
    ensures key !in Serialize(keys, options).value
  {
    SerializeFromShape(keys, options, options);
    assert key in Processed(keys, options);
  }

  /** Every key the flattening writes lands with the value all its writes agree on. */
  lemma SerializeWritten(keys: seq<string>, options: Fields, k: string, key: string, v: Value)
    requires PlainListedKeys(keys)
    requires Serialize(keys, options).Success?
    requires k in keys && !Skipped(options, k)
    requires Entry(key, v) in ArrayWrites(k, options[k].items)
    requires forall w :: w in ArrayWrites(k, options[k].items) && w.key == key ==> w.value == v
    ensures key in Serialize(keys, options).value && Serialize(keys, options).value[key] == v
  {
    SerializeFromShape(keys, options, options);
    var all := AllWrites(keys, options);
    AllWritesMember(keys, options, Entry(key, v));
    WriteKeyPrefix(k, options[k].items, Entry(key, v));
    forall w | w in all && w.key == key
      ensures w.value == v
    {
      AllWritesMember(keys, options, w);
      var k' :| k' in keys && !Skipped(options, k') && w in ArrayWrites(k', options[k'].items);
      WriteKeyPrefix(k', options[k'].items, w);
      PrefixKeyUnique(key, k, k');
    }
    WriteAllAgreed(options, all, key, v);
    assert key !in Processed(keys, options);
  }

  /**
   * For element `i` of a listed array and its non-array property `f`, the
   * result maps `k[i][f]` to that property's value.
   */
  lemma SerializeFlatField(keys: seq<string>, options: Fields, k: string, i: nat, j: nat)
    requires PlainListedKeys(keys)
    requires Serialize(keys, options).Success?
    requires k in keys && k in options && options[k].Arr?
    requires i < |options[k].items| && j < |OwnEntries(options[k].items[i])|
    requires PlainKeys(options[k].items[i])
    requires !OwnEntries(options[k].items[i])[j].value.Arr?
    ensures var e := OwnEntries(options[k].items[i])[j];
      && FieldKey(k, i, e.key) in Serialize(keys, options).value
      && Serialize(keys, options).value[FieldKey(k, i, e.key)] == e.value
  {
    var e := OwnEntries(options[k].items[i])[j];
    FlatFieldWrites(k, options[k].items, i, j);
    SerializeWritten(keys, options, k, FieldKey(k, i, e.key), e.value);
  }

  /**
   * For element `i` of a listed array `k` whose property `k` holds an array
   * `ys`, and a non-array property `g` of `ys[i2]`, the result maps
   * `k[i][k][i2][g]` to that property's value.
   */
  lemma SerializeNestedField(keys: seq<string>, options: Fields, k: string, i: nat, j: nat, i2: nat, j2: nat)
    requires PlainListedKeys(keys)
    requires Serialize(keys, options).Success?
    requires k in keys && k in options && options[k].Arr?
    requires i < |options[k].items| && j < |OwnEntries(options[k].items[i])|
    requires PlainKeys(options[k].items[i])
    requires OwnEntries(options[k].items[i])[j].key == k && OwnEntries(options[k].items[i])[j].value.Arr?
    requires i2 < |OwnEntries(options[k].items[i])[j].value.items|
    requires var y := OwnEntries(options[k].items[i])[j].value.items[i2];
      j2 < |OwnEntries(y)| && PlainKeys(y) && !OwnEntries(y)[j2].value.Arr?
    ensures var g := OwnEntries(OwnEntries(options[k].items[i])[j].value.items[i2])[j2];
      && NestedKey(k, i, i2, g.key) in Serialize(keys, options).value
      && Serialize(keys, options).value[NestedKey(k, i, i2, g.key)] == g.value
  {
    var g := OwnEntries(OwnEntries(options[k].items[i])[j].value.items[i2])[j2];
    NestedFieldWrites(k, options[k].items, i, j, i2, j2);
    SerializeWritten(keys, options, k, NestedKey(k, i, i2, g.key), g.value);
  }

  /** Nothing else appears: every result key is an untouched option or was written under a processed key. */
  lemma SerializeNoOtherKeys(keys: seq<string>, options: Fields, key: string)
    requires PlainListedKeys(keys)
    requires Serialize(keys, options).Success?
    requires key in Serialize(keys, options).value
    ensures || (key in options && key !in Processed(keys, options))
            || exists k :: k in keys && !Skipped(options, k) && StartsWith(key, k + "[")
  {
    SerializeFromShape(keys, options, options);
    WriteAllKeys(options, AllWrites(keys, options), key);
    if key !in options {
      var w :| w in AllWrites(keys, options) && w.key == key;
      AllWritesMember(keys, options, w);
      var k :| k in keys && !Skipped(options, k) && w in ArrayWrites(k, options[k].items);
      WriteKeyPrefix(k, options[k].items, w);
    }
  }

  /**
   * Elements without own enumerable keys (numbers, booleans) contribute
   * nothing: `forcedisplay: [0, 1]` is deleted and leaves no `forcedisplay[...]`
   * key behind, unless the options already held one.
   */
  lemma SerializeDropsScalarElements(keys: seq<string>, options: Fields, k: string, key: string)
    requires PlainListedKeys(keys)
    requires Serialize(keys, options).Success?
    requires k in keys && k in options && options[k].Arr?
    requires forall i :: 0 <= i < |options[k].items| ==> options[k].items[i].Num? || options[k].items[i].Bool?
    requires StartsWith(key, k + "[")
    ensures key in Serialize(keys, options).value <==> key in options
    ensures key in options ==> Serialize(keys, options).value[key] == options[key]
  {
    assert key[|k|] == '[';
    SerializeFromShape(keys, options, options);
    forall w | w in AllWrites(keys, options)
      ensures w.key != key
    {
      AllWritesMember(keys, options, w);
      var k' :| k' in keys && !Skipped(options, k') && w in ArrayWrites(k', options[k'].items);
      if k' == k {
        var i, j := WriteOrigin(k, options[k].items, w);
        assert false;
      } else if w.key == key {
        WriteKeyPrefix(k', options[k'].items, w);
        PrefixKeyUnique(key, k, k');
      }
    }
    WriteAllUntouched(options, AllWrites(keys, options), key);
  }
}

=== FILE: strings.dfy ===
/**
 * String helpers with JavaScript meaning: template-literal rendering of numbers,
 * `String.prototype.replace` with a string pattern and an empty replacement,
 * and ASCII lower-casing.
 */
module JsStrings {

  predicate IsDigit(c: char) {
    '0' <= c <= '9'
  }

  predicate IsUpper(c: char) {
    'A' <= c <= 'Z'
  }

  /** `p` is a prefix of `s`. */
  predicate StartsWith(s: string, p: string) {
    |p| <= |s| && s[..|p|] == p
  }

  /** `s` ends with the character `c`. */
  predicate EndsWith(s: string, c: char) {
    |s| > 0 && s[|s| - 1] == c
  }

  function DigitChar(d: nat): (c: char)
    requires d < 10
    ensures IsDigit(c)
  {
    ('0' as int + d) as char
  }

  function DigitValue(c: char): (d: nat)
    requires IsDigit(c)
    ensures d < 10
    ensures DigitChar(d) == c
  {
    c as int - '0' as int
  }

  /** The decimal text of a natural number, as `${n}` renders it. */
  function Decimal(n: nat): (r: string)
    ensures |r| > 0
    ensures forall i :: 0 <= i < |r| ==> IsDigit(r[i])
    decreases n
  {
    if n < 10 then [DigitChar(n)] else Decimal(n / 10) + [DigitChar(n % 10)]
  }

  /** Reads back a string of digits; the partner of `Decimal`. */
  function ParseDecimal(s: string): nat
    requires forall i :: 0 <= i < |s| ==> IsDigit(s[i])
    decreases |s|
  {
    if |s| == 0 then 0 else 10 * ParseDecimal(s[..|s| - 1]) + DigitValue(s[|s| - 1])
  }

  lemma {:induction false} DecimalRoundTrip(n: nat)
    ensures ParseDecimal(Decimal(n)) == n
    decreases n
  {
    if n >= 10 {
      var s := Decimal(n);
      assert s[..|s| - 1] == Decimal(n / 10);
      DecimalRoundTrip(n / 10);
    }
  }

  /** Distinct numbers render as distinct texts. */
  lemma DecimalInjective(a: nat, b: nat)
    ensures Decimal(a) == Decimal(b) ==> a == b
  {
    DecimalRoundTrip(a);
    DecimalRoundTrip(b);
  }

  /** The text of an integer as `${i}` renders it: a minus sign for negatives. */
  function IntText(i: int): (r: string)
    ensures |r| > 0
    ensures r[0] == '-' <==> i < 0
    ensures '/' !in r
  {
    if i < 0 then "-" + Decimal(-i) else Decimal(i)
  }

  /** Reads back the output of `IntText`. */
  function ParseInt(s: string): int
    requires |s| > 0
    requires forall i :: 0 < i < |s| ==> IsDigit(s[i])
    requires s[0] == '-' || IsDigit(s[0])
  {
    if s[0] == '-' then 0 - ParseDecimal(s[1..]) as int else ParseDecimal(s)
  }

  lemma IntTextRoundTrip(i: int)
    ensures ParseInt(IntText(i)) == i
  {
    if i < 0 {
      assert IntText(i)[1..] == Decimal(-i);
      DecimalRoundTrip(-i);
    } else {
      DecimalRoundTrip(i);
    }
  }

  /**
   * `s.replace(p, '')` with a string pattern: the first occurrence of `p`
   * (scanning from the left) is removed; `s` is returned unchanged when `p`
   * does not occur.  An empty pattern matches at position 0 and removes nothing.
   */
  function RemoveFirst(s: string, p: string): (r: string)
    ensures StartsWith(s, p) ==> r == s[|p|..]
    ensures (forall i :: 0 <= i <= |s| ==> !StartsWith(s[i..], p)) ==> r == s
    ensures forall i :: FirstOccurrence(s, p, i) ==> r == s[..i] + s[i + |p|..]
    ensures |r| == |s| || |r| == |s| - |p|
    decreases |s|
  {
    if StartsWith(s, p) then
      assert s[0..] == s;
      assert forall i :: FirstOccurrence(s, p, i) ==> i == 0;
      s[|p|..]
    else if |s| == 0 then s
    else
      var t := RemoveFirst(s[1..], p);
      RemoveFirstStep(s, p, t);
      [s[0]] + t
  }

  /** The contract of `RemoveFirst` carries over from the tail to the whole text when no occurrence starts at 0. */
  lemma RemoveFirstStep(s: string, p: string, t: string)
    requires |s| > 0 && !StartsWith(s, p)
    requires (forall i :: 0 <= i <= |s[1..]| ==> !StartsWith(s[1..][i..], p)) ==> t == s[1..]
    requires forall i :: FirstOccurrence(s[1..], p, i) ==> t == s[1..][..i] + s[1..][i + |p|..]
    ensures (forall i :: 0 <= i <= |s| ==> !StartsWith(s[i..], p)) ==> [s[0]] + t == s
    ensures forall i :: FirstOccurrence(s, p, i) ==> [s[0]] + t == s[..i] + s[i + |p|..]
  {
    if forall i :: 0 <= i <= |s| ==> !StartsWith(s[i..], p) {
      forall i | 0 <= i <= |s[1..]|
        ensures !StartsWith(s[1..][i..], p)
      {
        assert s[1..][i..] == s[i + 1..];
      }
      assert [s[0]] + s[1..] == s;
    }
    forall i | FirstOccurrence(s, p, i)
      ensures [s[0]] + t == s[..i] + s[i + |p|..]
    {
      FirstOccurrenceTail(s, p, i);
    }
  }

  /** A first occurrence past position 0 is the first occurrence in the tail, one position earlier. */
  lemma FirstOccurrenceTail(s: string, p: string, i: int)
    requires FirstOccurrence(s, p, i) && !StartsWith(s, p)
    ensures 0 < i && FirstOccurrence(s[1..], p, i - 1)
    ensures s[..i] == [s[0]] + s[1..][..i - 1]
    ensures s[i + |p|..] == s[1..][i - 1 + |p|..]
  {
    assert i != 0 by { assert s[0..] == s; }
    forall j | 0 <= j < i - 1
      ensures !StartsWith(s[1..][j..], p)
    {
      assert s[1..][j..] == s[j + 1..];
    }
    assert s[1..][i - 1..] == s[i..];
  }

  /** `p` occurs in `s` at position `i` and at no earlier position. */
  predicate FirstOccurrence(s: string, p: string, i: int) {
    && 0 <= i <= |s| && StartsWith(s[i..], p)
    && forall j :: 0 <= j < i ==> !StartsWith(s[j..], p)
  }

  /**
   * The pattern is cut out wherever it first occurs, not only at the start:
   * text before it that does not contain the pattern's first character stays.
   */
  lemma RemoveFirstAfter(a: string, p: string, t: string)
    requires |p| > 0 && p[0] !in a
    ensures RemoveFirst(a + p + t, p) == a + t
  {
    var s := a + p + t;
    assert s[|a|..][..|p|] == p;
    forall j | 0 <= j < |a|
      ensures !StartsWith(s[j..], p)
    {
      assert s[j..][0] == a[j];
    }
    assert FirstOccurrence(s, p, |a|);
    assert s[..|a|] == a;
    assert s[|a| + |p|..] == t;
  }

  function LowerChar(c: char): char {
    if IsUpper(c) then (c as int + 32) as char else c
  }

  /**
   * `toLocaleLowerCase` restricted to ASCII: upper-case letters become lower-case,
   * every other character is kept.
   */
  function AsciiLower(s: string): (r: string)
    ensures |r| == |s|
    ensures forall i :: 0 <= i < |r| ==> !IsUpper(r[i])
    ensures forall i :: 0 <= i < |r| ==> r[i] == s[i] || (IsUpper(s[i]) && r[i] as int == s[i] as int + 32)
  {
    seq(|s|, i requires 0 <= i < |s| => LowerChar(s[i]))
  }

  lemma AsciiLowerIdempotent(s: string)
    ensures AsciiLower(AsciiLower(s)) == AsciiLower(s)
  {
  }

  /**
   * Splitting at the first occurrence of a separator: when neither `a` nor `c`
   * contains `x`, the equality `a + [x] + b == c + [x] + d` forces `a == c` and
   * `b == d`.  Bracketed keys are told apart with this.
   */
  lemma SplitAtFirst(a: string, b: string, c: string, d: string, x: char)
    requires x !in a && x !in c
    requires a + [x] + b == c + [x] + d
    ensures a == c && b == d
  {
    var s := a + [x] + b;
    assert |a| == |c| by {
      assert s[|a|] == x && s[|c|] == x;
    }
    assert a == s[..|a|] == c;
    assert b == s[|a| + 1..] == d;
  }
}

=== FILE: values.dfy ===
/**
 * JavaScript values as the client handles them: request options, search
 * criteria, response bodies.  Numbers are modelled as integers.
 *
 * An object that sits inside an array (a search criterion, an item reference)
 * is `Obj(entries)`, its properties listed in the order `Object.keys` yields
 * them; that order decides which write wins when two flattened keys coincide.
 * A top-level option object is a `map<string, Value>`: the model never needs
 * its key order.
 */
module JsValues {
  import opened Wrappers

  datatype Value =
    | Undefined
    | Null
    | Bool(b: bool)
    | Num(n: int)
    | Str(s: string)
    | Arr(items: seq<Value>)
    | Obj(entries: seq<Entry>)

  /** One property of an object, or one property write. */
  datatype Entry = Entry(key: string, value: Value)

  /** An object used only through its keys: request params, bodies, headers. */
  type Fields = map<string, Value>

  /** JavaScript truthiness (`!v` is false): NaN is not modelled. */
  predicate Truthy(v: Value) {
    match v
    case Undefined => false
    case Null => false
    case Bool(b) => b
    case Num(n) => n != 0
    case Str(s) => s != ""
    case Arr(_) => true
    case Obj(_) => true
  }

  /** An optional string argument as a value: `undefined` when omitted. */
  function OptionalText(o: Option<string>): (v: Value)
    ensures o.Some? <==> v.Str?
    ensures o.Some? ==> v.s == o.value
    ensures o.None? ==> v == Undefined
  {
    match o
    case Some(s) => Str(s)
    case None => Undefined
  }

  /** `"" + o` for an optional string: the text `undefined` when omitted. */
  function ConcatText(o: Option<string>): (t: string)
    ensures o.Some? ==> t == o.value
    ensures o.None? ==> t == "undefined"
  {
    o.GetOr("undefined")
  }

  /**
   * Sequential property writes `obj[w.key] = w.value` on an object used as a map;
   * a later write to the same key wins.
   */
  function WriteAll(m: Fields, ws: seq<Entry>): Fields
    decreases |ws|
  {
    if ws == [] then m else WriteAll(m[ws[0].key := ws[0].value], ws[1..])
  }

  /** Writing `a` then `b` is writing `a + b`. */
  lemma {:induction false} WriteAllAppend(m: Fields, a: seq<Entry>, b: seq<Entry>)
    ensures WriteAll(m, a + b) == WriteAll(WriteAll(m, a), b)
    decreases |a|
  {
    if a != [] {
      assert (a + b)[1..] == a[1..] + b;
      WriteAllAppend(m[a[0].key := a[0].value], a[1..], b);
    } else {
      assert a + b == b;
    }
  }

  /** A key that no write touches keeps its presence and its value. */
  lemma {:induction false} WriteAllUntouched(m: Fields, ws: seq<Entry>, k: string)
    requires forall w :: w in ws ==> w.key != k
    ensures k in WriteAll(m, ws) <==> k in m
    ensures k in m ==> WriteAll(m, ws)[k] == m[k]
    decreases |ws|
  {
    if ws != [] {
      assert ws[0] in ws;
      WriteAllUntouched(m[ws[0].key := ws[0].value], ws[1..], k);
    }
  }

  /** A key written at least once, always with the same value, ends with that value. */
  lemma {:induction false} WriteAllAgreed(m: Fields, ws: seq<Entry>, k: string, v: Value)
    requires exists w :: w in ws && w.key == k
    requires forall w :: w in ws && w.key == k ==> w.value == v
    ensures k in WriteAll(m, ws) && WriteAll(m, ws)[k] == v
    decreases |ws|
  {
    var m' := m[ws[0].key := ws[0].value];
    if exists w :: w in ws[1..] && w.key == k {
      WriteAllAgreed(m', ws[1..], k, v);
    } else {
      assert ws[0].key == k;
      WriteAllUntouched(m', ws[1..], k);
    }
  }

  /** The keys after the writes are the keys before plus the keys written. */
  lemma {:induction false} WriteAllKeys(m: Fields, ws: seq<Entry>, k: string)
    ensures k in WriteAll(m, ws) <==> k in m || exists w :: w in ws && w.key == k
    decreases |ws|
  {
    if ws != [] {
      WriteAllKeys(m[ws[0].key := ws[0].value], ws[1..], k);
      assert forall w :: w in ws <==> w == ws[0] || w in ws[1..];
    }
  }

  /** Deleting a key that no write touches commutes with the writes. */
  lemma {:induction false} WriteAllDelete(m: Fields, ws: seq<Entry>, k: string)
    requires forall w :: w in ws ==> w.key != k
    ensures WriteAll(m - {k}, ws) == WriteAll(m, ws) - {k}
    decreases |ws|
  {
    if ws != [] {
      assert ws[0] in ws;
      assert (m - {k})[ws[0].key := ws[0].value] == m[ws[0].key := ws[0].value] - {k};
      WriteAllDelete(m[ws[0].key := ws[0].value], ws[1..], k);
    }
  }

  /**
   * `obj[k] = v` on an ordered object: an existing property keeps its place
   * and takes the new value, a new property goes last.
   */
  function Assign(o: seq<Entry>, k: string, v: Value): (r: seq<Entry>)
    ensures Entry(k, v) in r
    ensures forall e :: e in r ==> e in o || e == Entry(k, v)
    ensures forall e :: e in o && e.key != k ==> e in r
    decreases |o|
  {
    if o == [] then [Entry(k, v)]
    else if o[0].key == k then [Entry(k, v)] + o[1..]
    else [o[0]] + Assign(o[1..], k, v)
  }

  /** Sequential property writes on an ordered object. */
  function AssignAll(o: seq<Entry>, ws: seq<Entry>): seq<Entry>
    decreases |ws|
  {
    if ws == [] then o else AssignAll(Assign(o, ws[0].key, ws[0].value), ws[1..])
  }

  /** Every property after the writes was there before or was written. */
  lemma {:induction false} AssignAllOrigin(o: seq<Entry>, ws: seq<Entry>)
    ensures forall e :: e in AssignAll(o, ws) ==> e in o || e in ws
    decreases |ws|
  {
    if ws != [] {
      AssignAllOrigin(Assign(o, ws[0].key, ws[0].value), ws[1..]);
    }
  }

  /** A property no write touches survives the writes. */
  lemma {:induction false} AssignAllKeeps(o: seq<Entry>, ws: seq<Entry>, e: Entry)
    requires e in o
    requires forall w :: w in ws ==> w.key != e.key
    ensures e in AssignAll(o, ws)
    decreases |ws|
  {
    if ws != [] {
      assert ws[0] in ws;
      AssignAllKeeps(Assign(o, ws[0].key, ws[0].value), ws[1..], e);
    }
  }

  /** A key written at least once, always with the same value, ends with that value. */
  lemma {:induction false} AssignAllAgreed(o: seq<Entry>, ws: seq<Entry>, k: string, v: Value)
    requires exists w :: w in ws && w.key == k
    requires forall w :: w in ws && w.key == k ==> w.value == v
    ensures Entry(k, v) in AssignAll(o, ws)
    decreases |ws|
  {
    var o' := Assign(o, ws[0].key, ws[0].value);
    if exists w :: w in ws[1..] && w.key == k {
      AssignAllAgreed(o', ws[1..], k, v);
    } else {
      assert ws[0].key == k;
      AssignAllKeeps(o', ws[1..], Entry(k, v));
    }
  }

  /** `delete obj[k]` on an ordered object. */
  function Delete(o: seq<Entry>, k: string): (r: seq<Entry>)
    ensures forall e :: e in r <==> e in o && e.key != k
    decreases |o|
  {
    if o == [] then []
    else if o[0].key == k then Delete(o[1..], k)
    else [o[0]] + Delete(o[1..], k)
  }
}

=== FILE: wrappers.dfy ===
/** Option and Result, the two failure-carrying shapes the model needs. */
module Wrappers {

  /** A value that may be missing (JavaScript `undefined` for an optional argument or field). */
  datatype Option<+T> = None | Some(value: T) {

    /** The carried value, or `default` when there is none. */
    function GetOr(default: T): T {
      match this
      case Some(v) => v
      case None => default
    }
  }

  /** The outcome of a computation that can throw: a value, or the thrown error. */
  datatype Result<+T, +E> = Success(value: T) | Failure(error: E)
}
